=== FILE: README.md ===
# notes_converter in Dafny

notes_converter turns the markdown notes of a directory into typst
documents. For each eligible `X.md` it:

- asks pandoc to write `X.typ`;
- opens that file with a fixed header that carries the title (the stem with
  underscores made spaces) and today's date in French (`5 Mars, 2024`);
- rewrites the body;
- hands the result to typst.

The body rewrite comes in two stages.

1. The whole text merges the two-line equation notation
   `systemequation $A$` / `$B$` into `$cases(A, B)$`.
2. Each line then goes through four rules, in this order:
   1. `#link("X.md")` becomes `#link("X.pdf")`;
   2. `\#pagebreak` becomes `#pagebreak`;
   3. `%20` becomes a space;
   4. the one-line notation `systemequation $A$ $B$` becomes `$cases(A, B)$`.

The project has one module per part of the program:

- `Text`: strings, character classes, runs, and lines as `str::lines` and
  `writeln!` see them.
- `Rewrite`: the four rules, and one leftmost, non-overlapping
  "replace all" scanner that applies any of them. For each regular
  expression, the match the regex crate picks at a position is worked out by
  hand:
  - the lazy link capture stops at the first `.md")` before a newline;
  - the multi-line captures exclude newline, `|` and `$`, and the white
    space between them must hold a newline;
  - the single-line captures are greedy, so the match ends at the line's
    last `$`, and its branches meet at the last `$ $` whose second `$` comes
    before that last `$`.
- `Rules`: the two literal rules, and what every rule leaves behind.
- `Links`: the link rule.
- `Equations`: the two equation rules.
- `Body`: one line's rewrite (`RewriteLine`) and the whole body's
  (`TransformBody`).
- `Header`: the date string, the title and the fourteen header lines.
- `Cli`: the argument vector, `file_stem`/`extension`, and which entries
  are converted.
- `Pipeline`: one run, file by file. The file's content is the header
  followed by every rewritten line and a newline. The messages printed
  about pandoc and typst are modelled too.

The code differs from what one might expect of it in three ways, and the
model follows the code:

- The rules are not idempotent.
  - `\\#pagebreak` needs two passes to lose both backslashes
    (`Rules.UnescapeNotIdempotent`).
  - A link `#link("x.pdf") .md")` changes again on a second pass
    (`Links.LinkNotIdempotent`).
- A `$` inside the second branch of a multi-line equation does not prevent
  the rewrite. The branch stops at that `$`, and the rest stays behind the
  `cases` expression (`Equations.DollarEndsSecondBranch`).
- The single-line rule fires at most once per line, because its greedy
  captures reach the last `$` of the line (`Equations.SingleOncePerLine`).

## Model

| member | source | states |
|---|---|---|
| Text.Join | src/main.rs:143 | `join("\n")`. Its inverse is `Text.Split`, and `Text.SplitJoin` states that they undo each other. |
| Text.Split | src/main.rs:148 | The pieces between newlines, including an empty last piece, are newline-free and join back to the text. |
| Text.SplitJoin | src/main.rs:143-148 | Splitting joined newline-free lines gives the lines back. |
| Text.Lines | src/main.rs:148 | `str::lines`, and `BufRead::lines` at line 92: newline-free lines. Stated by `Text.LinesJoin`, `Text.LinesUnlines` and `Text.LinesCount`. |
| Text.LinesJoin | src/main.rs:143-148 | Joining newline-free lines and cutting the text again loses only one trailing empty line. |
| Text.LinesCount | src/main.rs:148 | A text has at most one more line than it has newlines. |
| Text.Unlines | src/main.rs:150-160 | What `writeln!` writes for each line in turn. Stated by `Text.LinesUnlines`, `Text.UnlinesAsJoin` and `Text.UnlinesConcat`. |
| Text.LinesUnlines | src/main.rs:159 | Cutting what `writeln!` wrote for newline-free lines gives the lines back. |
| Text.UnlinesAsJoin | src/main.rs:159 | Writing each line with a newline is joining the lines and a final empty one. |
| Text.UnlinesConcat | src/main.rs:121-159 | Writing two runs of lines in turn writes their concatenation. |
| Rewrite.MatchAt | src/main.rs:136-158 | A match consumes between one character and the rest of the text. A literal match is exactly the searched text and yields the replacement. Link and equation matches never yield a newline. An equation match starts with `systemequation $` and yields a `$cases(` expression. |
| Rewrite.FindBeforeNewline | src/main.rs:136 | The lazy capture: finds the first `.md")` reached without crossing a newline. When there is none, no position before the first newline starts one. |
| Rewrite.LinkAt | src/main.rs:136 | A link match starts with `#link("` in a text that holds a `.md")`. It consumes between one character and the rest of the text, and its replacement holds no newline. The exact match is stated by `Links.LinkAtExact`. |
| Rewrite.SepSearch | src/main.rs:154 | Finds the last `$ $` starting in the range that the greedy first capture can reach. When there is none, none starts there. |
| Rewrite.SepSearchFinds | src/main.rs:154 | A `$ $` with no later one in the range is exactly the one the search returns. |
| Rewrite.MultiAt | src/main.rs:137 | A multi-line match starts with `systemequation $`. It consumes between one character and the rest of the text, and yields a newline-free `$cases(` expression. The texts it matches are exactly the notation: `Equations.MultiAtExact` (the notation is matched) and `Equations.MultiAtShape` (every match is the notation). |
| Rewrite.SingleAt | src/main.rs:154 | A one-line match starts with `systemequation $`. It consumes between one character and the rest of the text, and yields a newline-free `$cases(` expression. The exact match is stated by `Equations.SingleAtExact`. |
| Rewrite.ReplaceAll | src/main.rs:144-158 | `Regex::replace_all` and `str::replace`: every leftmost, non-overlapping match replaced. Stated by `Rewrite.PrefixUntouched` (text before the first match is copied), `Rewrite.HitAfter` (the match is replaced and the scan resumes after it), `Rewrite.NoMatchUnchanged` and `Rewrite.NewlinesNotIncreased`. |
| Rewrite.PrefixUntouched | src/main.rs:144-158 | A prefix in which no match starts is copied unchanged ahead of the rewritten rest. |
| Rewrite.NoMatchUnchanged | src/main.rs:144-158 | A text in which no match starts anywhere comes out unchanged. |
| Rewrite.HitAfter | src/main.rs:144-158 | The leftmost match is replaced, and the scan resumes right after the text it consumed. |
| Rewrite.NewlinesNotIncreased | src/main.rs:144-158 | No rule adds a newline, so no rewrite increases the number of lines. |
| Rewrite.CasesNoNewline | src/main.rs:145 | A `cases` expression of two newline-free branches is newline-free. |
| Rules.LiteralUntouched | src/main.rs:152-153 | `str::replace` changes nothing in a text without an occurrence. |
| Rules.LiteralFirst | src/main.rs:152-153 | The first occurrence of a border-free pattern is replaced, and the text before it is kept. |
| Rules.LiteralEveryOccurrence | src/main.rs:152-153 | Every occurrence of a border-free pattern between pieces that do not contain it is replaced, and the pieces are kept. |
| Rules.UnescapeEveryOccurrence | src/main.rs:152 | Every `\#pagebreak` becomes `#pagebreak`, and the text between them is kept. |
| Rules.UnescapeNotIdempotent | src/main.rs:152 | On `\\#pagebreak` one pass gives `\#pagebreak` and a second pass gives `#pagebreak`: two passes differ from one. |
| Rules.DecodeEveryOccurrence | src/main.rs:153 | Every `%20` becomes a space, and the text between them is kept. |
| Rules.DecodeLeavesNoPercent20 | src/main.rs:153 | After decoding, no `%20` is left, not even one that a replacement could have formed. |
| Rules.SingleKeepsNoPercent20 | src/main.rs:154-158 | The single-line rule cannot form a `%20`. |
| Rules.CasesNoPercent20 | src/main.rs:145 | A `cases` expression over branches without `%20` has none. |
| Links.LinkUntouched | src/main.rs:151 | A line without both `#link("` and `.md")` is unchanged by the link rule. |
| Links.LinkAtExact | src/main.rs:136 | At `#link("X.md")` with X newline-free and without `.md")`, the match ends after the first `.md")` and yields `#link("X.pdf")`. |
| Links.LinkRetarget | src/main.rs:151 | The first markdown link of a line is retargeted to `.pdf`. The text before it is kept, and the scan resumes after it. |
| Links.MarkdownLinkExample | src/main.rs:151 | `#link("name.md")` becomes `#link("name.pdf")`. |
| Links.OtherLinkExample | src/main.rs:151 | `#link("img.png")` is left alone. |
| Links.LinkNotIdempotent | src/main.rs:151 | The link rule changes its own output on a second pass when a later `.md")` follows on the line. |
| Equations.EquationsUntouched | src/main.rs:144-158 | Text without `systemequation $` is unchanged by both equation rules. |
| Equations.MultiAtExact | src/main.rs:137 | The multi-line notation, with branches free of newline, `\|` and `$` and a gap holding a newline, matches up to its closing `$`. It yields `$cases(A, B)$`. |
| Equations.MultiExact | src/main.rs:143-147 | In the joined text, the first multi-line notation is replaced by `$cases(A, B)$`. The text before it is kept, and the scan goes on after it. |
| Equations.MultiAtShape | src/main.rs:137 | Every multi-line match is the notation: the marker, a first branch free of newline, `\|` and `$`, white space holding a newline, and a second branch like the first, each closed by `$`. The match ends at the last `$` and yields `$cases(A, B)$`. |
| Equations.MultiRejectsFirst | src/main.rs:137 | A newline or `\|` in the first branch: no match. |
| Equations.MultiNeedsNewline | src/main.rs:137 | White space without a newline between the branches: no match. |
| Equations.MultiRejectsSecond | src/main.rs:137 | A newline or `\|` in the second branch: no match. |
| Equations.MultiRejectsDollarFirst | src/main.rs:137 | A `$` in the first branch closes it. When no white space follows that `$`, no match. |
| Equations.RejectedUnchanged | src/main.rs:137-147 | A text whose only marker opens a notation the rule rejects comes out of the multi-line rule unchanged. |
| Equations.DollarEndsSecondBranch | src/main.rs:137-147 | A `$` inside the second branch ends that branch. The rest is left after the `cases` expression. |
| Equations.SingleAtExact | src/main.rs:154 | `systemequation $A$ $B$` followed by text without `$` matches to the end of `$B$`, with B free of `$`. It yields `$cases(A, B)$`. |
| Equations.SingleExact | src/main.rs:154-158 | On a line, the one-line notation is replaced by `$cases(A, B)$`. The text before and after it is kept. |
| Equations.SingleFirst | src/main.rs:154-158 | The first one-line notation is replaced, and the scan resumes after it. |
| Equations.SingleOncePerLine | src/main.rs:154 | After a one-line match, no `$` is left on the line, so the rule fires at most once per line. |
| Body.RewriteLine | src/main.rs:150-158 | The four per-line rules in the program's order: link, `\#pagebreak`, `%20`, one-line equation. Stated by `Body.RewriteLineNoNewline`, `Body.LineUnchanged`, `Body.NoPercent20Left`, `Body.SingleLine`, `Body.DecodeBeforeSingle` and `Body.LinkWithSpace`. |
| Body.MergedLines | src/main.rs:143-148 | pandoc's lines joined with newlines, multi-line equations merged, and the text cut again as `str::lines` does. Stated by `Body.LineCountBound` and `Body.TwoLineEquation`. |
| Body.TransformBody | src/main.rs:143-160 | Every merged line passed through the per-line rules. Stated by `Body.TransformBodyLines`, `Body.NoEquationBody`, `Body.PlainBody` and `Body.TwoLineEquation`. |
| Body.RewriteLineNoNewline | src/main.rs:150-158 | The per-line rules never bring in a newline. |
| Body.LineUnchanged | src/main.rs:150-159 | A line holding none of `.md")`, `\#pagebreak`, `%20` and `systemequation $` is written unchanged. |
| Body.NoPercent20Left | src/main.rs:153-158 | No written line holds `%20`. |
| Body.PagebreakLine | src/main.rs:152 | In a line of plain pieces, every `\#pagebreak` is written `#pagebreak`. |
| Body.SpaceLine | src/main.rs:153 | In a line of plain pieces, every `%20` is written as a space. |
| Body.DecodeBeforeSingle | src/main.rs:153-158 | Rule order: `%20` is decoded before the single-line rule. So `systemequation $A$%20$B$` becomes `$cases(A, B)$`. |
| Body.SingleLine | src/main.rs:154-158 | `systemequation $A$ $B$` on a line of its own becomes `$cases(A, B)$`. |
| Body.OneLineExample | src/main.rs:154-158 | `systemequation $x+y=1$ $x-y=2$` becomes `$cases(x+y=1, x-y=2)$`. |
| Body.LinkWithSpace | src/main.rs:151-153 | Rule order: a link is retargeted first and its `%20` decoded after. So `#link("a%20b.md")` becomes `#link("a b.pdf")`. |
| Body.TransformBodyLines | src/main.rs:143-160 | Every written body line is newline-free, so the body is exactly those lines. |
| Body.LineCountBound | src/main.rs:143-160 | The body never has more lines than pandoc wrote. |
| Body.NoEquationBody | src/main.rs:143-160 | Without any `systemequation $`, the body is pandoc's lines rewritten one by one. A trailing empty line is dropped, as `str::lines` drops it. |
| Body.PlainBody | src/main.rs:143-160 | Lines free of all four notations are written as they are, minus a trailing empty line. |
| Body.TwoLineEquation | src/main.rs:143-160 | The two lines `systemequation $A$` and `$B$` become the single line `$cases(A, B)$`. |
| Body.TwoLineExample | src/main.rs:143-160 | `systemequation $x+y=1$` followed by `$x-y=2$` becomes `$cases(x+y=1, x-y=2)$`. |
| Body.CasesPlain | src/main.rs:145 | A `cases` expression over plain branches holds none of the four notations, so the per-line rules leave it alone. |
| Header.NatToDecimal | src/main.rs:102 | A number is written as a non-empty string of decimal digits. |
| Header.DecimalRoundTrip | src/main.rs:102 | Reading back the written digits gives the number. |
| Header.NoLeadingZero | src/main.rs:102 | Only zero is written with a leading `0`. |
| Header.IntToDecimal | src/main.rs:118 | `{}` of a signed year: non-empty. Its inverse is `Header.ParseInt`, as `Header.IntRoundTrip` states. |
| Header.IntRoundTrip | src/main.rs:118 | A year, negative ones included, reads back from its decimal form. |
| Header.MonthName | src/main.rs:103-117 | The French month name, and the empty name outside 1 to 12. Stated by `Header.MonthNumber`, `Header.MonthRoundTrip`, `Header.MonthNameShape` and `Header.UnknownMonth`. |
| Header.MonthNumber | src/main.rs:103-117 | A name has a month number exactly when it is that month's French name. |
| Header.MonthRoundTrip | src/main.rs:103-117 | Each of the twelve names identifies its month. |
| Header.MonthNameShape | src/main.rs:103-115 | The twelve names are non-empty and hold no comma. |
| Header.DateString | src/main.rs:100-119 | The day, the French month name, a comma and the year. Stated by `Header.DateRoundTrip`, `Header.DateExample` and `Header.UnknownMonth`. |
| Header.DateRoundTrip | src/main.rs:99-119 | For a real month, the date string reads back to the date: different dates are written differently. |
| Header.DateExample | src/main.rs:100-119 | The fifth of March 2024 is written `5 Mars, 2024`. |
| Header.UnknownMonth | src/main.rs:116 | A month outside 1 to 12 leaves an empty name between the day and the year. |
| Header.Title | src/main.rs:120 | The stem with every `_` made a space. Stated by `Header.TitleSpaces` and `Header.TitleNoUnderscore`. |
| Header.TitleSpaces | src/main.rs:120 | The title has the stem's length. Each `_` becomes a space, and every other character is kept. |
| Header.TitleNoUnderscore | src/main.rs:120 | No underscore survives in the title. |
| Header.WritelnJoin | src/main.rs:121-135 | One `writeln!` of a multi-line format string writes each of its lines followed by a newline. |
| Header.HeaderText | src/main.rs:121-135 | What the five `writeln!` calls write. Stated by `Header.HeaderIsLines`, `Header.HeaderLinesCut` and `Header.HeaderFields`. |
| Header.HeaderIsLines | src/main.rs:121-135 | The five `writeln!` calls write the fourteen header lines, each followed by a newline. |
| Header.HeaderLinesCut | src/main.rs:121-135 | With a newline-free title and date, reading the header back as lines gives the fourteen lines. |
| Header.HeaderFields | src/main.rs:130-134 | The sixth line carries the title and the tenth the date, each as a quoted string argument. |
| Cli.ParseArgs | src/main.rs:13-22 | A usage error always exits with status 1 and the missing-file-name message. |
| Cli.ParseArgsCases | src/main.rs:13-22 | A usage error is exactly `--single-file` with nothing after it. A single file is `--single-file PATH`, naming PATH. Every other argument vector converts all files. |
| Cli.ExtraArgumentsIgnored | src/main.rs:13-22 | Arguments after the file name, or after an unknown first argument, change nothing. |
| Cli.CommandLineRoundTrip | src/main.rs:13-22 | Every invocation the program can derive from its arguments is requested by some command line. |
| Cli.Stem | src/main.rs:46 | `Path::file_stem` of a name. Stated by `Cli.StemDotExtension` and `Cli.SplitAtExtension`. |
| Cli.Extension | src/main.rs:40 | `Path::extension` of a name. Stated by `Cli.StemDotExtension`, `Cli.SplitAtExtension` and `Cli.MdExtension`. |
| Cli.StemDotExtension | src/main.rs:40-46 | When a name has an extension, the name is the stem, a `.` and the extension, and the stem is non-empty. |
| Cli.SplitAtExtension | src/main.rs:40-46 | `X.e`, with X non-empty and e dot-free, has stem X and extension e. |
| Cli.EntryPath | src/main.rs:31-38 | The `./`-prefixed path `read_dir(".")` reports for an entry. Stated by `Cli.CompEnding`. |
| Cli.CompEnding | src/main.rs:34-38 | The `./` before an entry name never completes a `.comp.md` ending. |
| Cli.MdExtension | src/main.rs:40 | The extension is `md` exactly when the name ends in `.md` with something before it. |
| Cli.Eligible | src/main.rs:33-40 | The two filters on directory entries. Stated by `Cli.EligibleIff`. |
| Cli.EligibleIff | src/main.rs:31-41 | An entry is converted exactly when its name ends in `.md`, has something before it, and does not end in `.comp.md`. |
| Cli.OutputName | src/main.rs:46-48 | The `.typ` output named after the input's stem. Stated by `Cli.OutputNameOfEligible`. |
| Cli.OutputNameOfEligible | src/main.rs:46-48 | The output of `X.md` is `X.typ`, and it has the same stem. |
| Cli.SelectAll | src/main.rs:31-41 | The converted entries are exactly the eligible ones, with none added. |
| Cli.SelectAllIdempotent | src/main.rs:31-41 | Selecting among selected entries keeps them all. |
| Cli.SelectAllConcat | src/main.rs:31-41 | Selecting from two runs of entries selects from each in turn: the filter works entry by entry. |
| Cli.SelectAllKeepsOrder | src/main.rs:31-41 | An eligible entry keeps its place among the selected ones, and an ineligible one drops out. The selection keeps the directory's order and each entry's multiplicity. |
| Cli.SelectFiles | src/main.rs:23-42 | Without the flag, the selection is the eligible entries. With it, the selection is the entries the path comparison accepts. |
| Pipeline.FileContent | src/main.rs:121-160 | The header followed by every rewritten body line and a newline. Stated by `Pipeline.ContentLines` and `Pipeline.ContentLineCount`. |
| Pipeline.TypstReport | src/main.rs:164-180 | The line printed about typst. Stated by `Pipeline.TypstReportKinds`. |
| Pipeline.ProcessFile | src/main.rs:44-82 | One file: pandoc, then the header and body, then typst. Stated by `Pipeline.PandocSuccess` and `Pipeline.PandocFailureWritesNothing`. |
| Pipeline.Run | src/main.rs:8-85 | One run over the directory. The clock is read once per file, as `add_header_to_file` calls `Local::now()` for each file (main.rs:99). Stated by `Pipeline.UsageStops`, `Pipeline.AllFilesRun` and `Pipeline.SingleFileRun`. |
| Pipeline.ContentLines | src/main.rs:121-160 | For a title and a date without a newline, the written file, read as lines, is the fourteen header lines followed by the rewritten body. |
| Pipeline.ContentLineCount | src/main.rs:121-160 | For a title and a date without a newline, the written file has at most fourteen lines more than pandoc wrote. |
| Pipeline.DateStringIsLine | src/main.rs:99-119 | The date string holds no newline. |
| Pipeline.TitleIsLine | src/main.rs:97-120 | The title of a newline-free name holds no newline. |
| Pipeline.TypstReportKinds | src/main.rs:164-180 | The printed line tells typst's success from its failures. A failure line ends with what typst reported. |
| Pipeline.PandocFailureWritesNothing | src/main.rs:67-80 | When pandoc fails or cannot start, no file is written, and the message names the input's path. |
| Pipeline.PandocSuccess | src/main.rs:44-66 | When pandoc succeeds on an `X.md` whose name holds no newline, the result is `X.typ` holding the header (title from X, the clock's date) and the rewritten body. What typst reports does not change the content. |
| Pipeline.UsageStops | src/main.rs:13-22 | `--single-file` without a file name stops the run with status 1 before any file is touched. |
| Pipeline.AllFilesRun | src/main.rs:31-44 | Without `--single-file`, the results are one per eligible entry and no other, in the order `Cli.SelectAll` keeps. Each result depends only on its own file: its name, the clock reading for it, and what the tools report for it. |
| Pipeline.SingleFileRun | src/main.rs:14-30 | With `--single-file PATH`, exactly the entries that the path comparison accepts are converted, each with its own clock reading. |

## Left out

- Reading and writing files, the temporary `.temp` file and the final rename (main.rs:91-95, 162). The model computes the final content instead. I/O errors in the header step are not modelled. Such an error prints "Failed to add header to file" (main.rs:64). The `?` after each step (main.rs:91, 95, 121-135, 141, 159, 162) returns at once. The rename, or at least the typst run, is skipped, and no typst message is printed for that file. `Pipeline.ProcessFile` always writes and reports once pandoc succeeds.
- The clock (`Local::now`, main.rs:99): `Pipeline.Run` takes it as a function from each file to the date read for it (`Header.Date`). So files of one run may carry different dates, for example when a run crosses midnight.
- pandoc and typst: what each reports, and the text pandoc writes, are parameters (`Pipeline.ToolRun` and `pandocOutput`).
- The output stream of the typst message: `Pipeline.TypstReport` gives the text only. Success goes to standard output (`println!`, main.rs:168), and both failures go to standard error (`eprintln!`, main.rs:171, 178). The pandoc messages all go to standard error.
- The parallel iteration (`par_iter`): files are processed independently, so the model lists the results in directory order. The order in which messages interleave is not modelled.
- `--single-file` path matching (main.rs:24-30): stripping the working directory and comparing against `.\` joined paths is platform path logic. It is the parameter `isTarget`.
- `std::env::current_dir` and `read_dir` errors. Entries that cannot be read are skipped by the program. The model starts from the entry names.
- Non-UTF-8 names, where `to_str().unwrap()` would panic. All names are strings here.
- `str::lines` (main.rs:148) and `BufRead::lines` (main.rs:92) also strip a `\r` before each `\n`. `Text.Lines` models both, and it splits on `\n` only.
- The regex engine itself. Only the matches that the three patterns produce are modelled, worked out by hand. `\s` is Unicode White_Space.
- Body.PagebreakLine: proved only for pieces free of `"`, `\`, `%` and `$`, so that the other rules do not interfere.
- Body.SpaceLine: proved only for pieces free of `"`, `\`, `%` and `$`, for the same reason.
- Body.DecodeBeforeSingle: proved only for branches free of `"`, `\`, `%`, `$` and newline.
- Body.SingleLine: proved only for branches free of `"`, `\`, `%`, `$` and newline.
- Body.LinkWithSpace: proved only for targets free of `"`, `\`, `%`, `$` and newline.
- Body.TwoLineEquation: proved only for branches free of `"`, `\` and `%`, so that the per-line rules leave the `cases` expression alone.

=== FILE: body.dfy ===
/**
 * The body rewriting of `add_header_to_file`: the lines pandoc wrote are
 * joined, multi-line equations are merged, the text is cut back into lines
 * and each line goes through the four per-line rules in a fixed order.
 */
module Body {
  import opened Text
  import opened Rewrite
  import opened Rules
  import opened Links
  import opened Equations

  /** The per-line rules, in the order the program applies them. */
  function RewriteLine(line: string): string {
    ReplaceAll(SingleLineEquation, ReplaceAll(DecodeSpace, ReplaceAll(Unescape, ReplaceAll(LinkToPdf, line))))
  }

  /** The lines of the body after the multi-line equations are merged. */
  function MergedLines(lines: seq<string>): seq<string> {
    Lines(ReplaceAll(MultiLineEquation, Join(lines)))
  }

  /** The body as it is written after the header. */
  function TransformBody(lines: seq<string>): seq<string> {
    var merged := MergedLines(lines);
    seq(|merged|, i requires 0 <= i < |merged| => RewriteLine(merged[i]))
  }

  // ------------------------------------------------------------ one line

  /** None of the per-line rules brings in a newline. */
  lemma RewriteLineNoNewline(line: string)
    requires '\n' !in line
    ensures '\n' !in RewriteLine(line)
  {
    var l1 := ReplaceAll(LinkToPdf, line);
    var l2 := ReplaceAll(Unescape, l1);
    var l3 := ReplaceAll(DecodeSpace, l2);
    NewlineCountZero(line);
    NewlinesNotIncreased(LinkToPdf, line);
    NewlinesNotIncreased(Unescape, l1);
    NewlinesNotIncreased(DecodeSpace, l2);
    NewlinesNotIncreased(SingleLineEquation, l3);
    NewlineCountZero(RewriteLine(line));
  }

  /** A line without any of the four notations comes out as it went in. */
  lemma LineUnchanged(line: string)
    requires !Contains(line, MdClose) && !Contains(line, "\\#pagebreak")
    requires !Contains(line, "%20") && !Contains(line, Marker)
    ensures RewriteLine(line) == line
  {
    LinkUntouched(line);
    LiteralUntouched("\\#pagebreak", "#pagebreak", line);
    LiteralUntouched("%20", " ", line);
    EquationsUntouched(line);
  }

  /** No `%20` is left in a rewritten line. */
  lemma NoPercent20Left(line: string)
    ensures !Contains(RewriteLine(line), "%20")
  {
    var l3 := ReplaceAll(DecodeSpace, ReplaceAll(Unescape, ReplaceAll(LinkToPdf, line)));
    DecodeLeavesNoPercent20(ReplaceAll(Unescape, ReplaceAll(LinkToPdf, line)));
    SingleKeepsNoPercent20(l3);
  }

  /** A character neither in the pieces nor in the separator is not in their interleaving. */
  lemma {:induction false} InterleaveMissing(ps: seq<string>, sep: string, c: char)
    requires |ps| > 0 && c !in sep
    requires forall i :: 0 <= i < |ps| ==> c !in ps[i]
    ensures c !in Interleave(ps, sep)
  {
    if |ps| > 1 {
      InterleaveMissing(ps[1..], sep, c);
    }
  }

  /**
   * On a line made of plain pieces separated by `\#pagebreak`, every
   * separator is unescaped and the pieces are kept.
   */
  lemma PagebreakLine(ps: seq<string>)
    requires |ps| > 0
    requires forall i :: 0 <= i < |ps| ==> '"' !in ps[i] && '\\' !in ps[i] && '%' !in ps[i] && '$' !in ps[i]
    ensures RewriteLine(Interleave(ps, "\\#pagebreak")) == Interleave(ps, "#pagebreak")
  {
    PagebreakChars(ps);
    UnescapePieces(ps);
    OnlyUnescape(Interleave(ps, "\\#pagebreak"), Interleave(ps, "#pagebreak"));
  }

  /**
   * On a line made of plain pieces separated by `%20`, every separator
   * becomes a space and the pieces are kept.
   */
  lemma SpaceLine(ps: seq<string>)
    requires |ps| > 0
    requires forall i :: 0 <= i < |ps| ==> '"' !in ps[i] && '\\' !in ps[i] && '%' !in ps[i] && '$' !in ps[i]
    ensures RewriteLine(Interleave(ps, "%20")) == Interleave(ps, " ")
  {
    InterleaveMissing(ps, "%20", '"');
    InterleaveMissing(ps, "%20", '\\');
    DecodePieces(ps);
    InterleaveMissing(ps, " ", '$');
    OnlyDecode(Interleave(ps, "%20"), Interleave(ps, " "));
  }

  /** A line only the unescaping changes. */
  lemma OnlyUnescape(s: string, u: string)
    requires '"' !in s && ReplaceAll(Unescape, s) == u && '%' !in u && '$' !in u
    ensures RewriteLine(s) == u
  {
    LinkSkips(s);
    LastTwoUntouched(u);
  }

  /** A line only the space decoding changes. */
  lemma OnlyDecode(s: string, u: string)
    requires '"' !in s && '\\' !in s && ReplaceAll(DecodeSpace, s) == u && '$' !in u
    ensures RewriteLine(s) == u
  {
    FirstTwoUntouched(s);
    MissingCharNotContained(u, Marker, 15);
    EquationsUntouched(u);
  }

  lemma DecodePieces(ps: seq<string>)
    requires |ps| > 0
    requires forall i :: 0 <= i < |ps| ==> '%' !in ps[i]
    ensures ReplaceAll(DecodeSpace, Interleave(ps, "%20")) == Interleave(ps, " ")
  {
    forall i | 0 <= i < |ps|
      ensures !Contains(ps[i], "%20")
    {
      MissingCharNotContained(ps[i], "%20", 0);
    }
    DecodeEveryOccurrence(ps);
  }

  lemma PagebreakChars(ps: seq<string>)
    requires |ps| > 0
    requires forall i :: 0 <= i < |ps| ==> '"' !in ps[i] && '%' !in ps[i] && '$' !in ps[i]
    ensures '"' !in Interleave(ps, "\\#pagebreak")
    ensures '%' !in Interleave(ps, "#pagebreak") && '$' !in Interleave(ps, "#pagebreak")
  {
    InterleaveMissing(ps, "\\#pagebreak", '"');
    InterleaveMissing(ps, "#pagebreak", '%');
    InterleaveMissing(ps, "#pagebreak", '$');
  }

  lemma UnescapePieces(ps: seq<string>)
    requires |ps| > 0
    requires forall i :: 0 <= i < |ps| ==> '\\' !in ps[i]
    ensures ReplaceAll(Unescape, Interleave(ps, "\\#pagebreak")) == Interleave(ps, "#pagebreak")
  {
    forall i | 0 <= i < |ps|
      ensures !Contains(ps[i], "\\#pagebreak")
    {
      MissingCharNotContained(ps[i], "\\#pagebreak", 0);
    }
    UnescapeEveryOccurrence(ps);
  }

  /** Without `"` the link rule has nothing to do. */
  lemma LinkSkips(line: string)
    requires '"' !in line
    ensures ReplaceAll(LinkToPdf, line) == line
  {
    MissingCharNotContained(line, MdClose, 3);
    LinkUntouched(line);
  }

  /** Without `%` and `$` the space decoding and the single-line equation rule have nothing to do. */
  lemma LastTwoUntouched(line: string)
    requires '%' !in line && '$' !in line
    ensures ReplaceAll(SingleLineEquation, ReplaceAll(DecodeSpace, line)) == line
  {
    MissingCharNotContained(line, "%20", 0);
    LiteralUntouched("%20", " ", line);
    MissingCharNotContained(line, Marker, 15);
    EquationsUntouched(line);
  }

  /**
   * The space decoding runs before the single-line equation rule:
   * `systemequation $a$%20$b$` first becomes `systemequation $a$ $b$` and
   * then a `cases` expression.
   */
  lemma DecodeBeforeSingle(line: string, a: string, b: string)
    requires line == Marker + (a + ("$%20$" + (b + "$")))
    requires forall c :: c in a || c in b ==> c != '"' && c != '\\' && c != '%' && c != '$' && c != '\n'
    ensures RewriteLine(line) == Cases(a, b)
  {
    var x := Marker + (a + "$");
    var y := "$" + (b + "$");
    DecodeLineShape(line, a, b);
    FirstTwoUntouched(line);
    DecodeStep(line, x, y);
    SingleAlone(x + (" " + y), a, b);
  }

  lemma DecodeLineShape(line: string, a: string, b: string)
    requires line == Marker + (a + ("$%20$" + (b + "$")))
    requires forall c :: c in a || c in b ==> c != '"' && c != '\\' && c != '%' && c != '$' && c != '\n'
    ensures '"' !in line && '\\' !in line
    ensures line == Marker + (a + "$") + ("%20" + ("$" + (b + "$")))
    ensures '%' !in Marker + (a + "$") && '%' !in "$" + (b + "$")
    ensures '\n' !in a && '\n' !in b && '$' !in b
  {
    assert "$%20$" == "$" + ("%20" + "$");
  }

  /** A line that is one single-line equation over plain branches becomes one `cases` expression. */
  lemma SingleLine(line: string, a: string, b: string)
    requires line == Marker + (a + "$") + (" " + ("$" + (b + "$")))
    requires forall c :: c in a || c in b ==> c != '"' && c != '\\' && c != '%' && c != '$' && c != '\n'
    ensures RewriteLine(line) == Cases(a, b)
  {
    assert '"' !in line && '\\' !in line && '%' !in line;
    FirstTwoUntouched(line);
    MissingCharNotContained(line, "%20", 0);
    LiteralUntouched("%20", " ", line);
    SingleAlone(line, a, b);
  }

  /**
   * A link whose target holds `%20` is retargeted first and decoded after:
   * `#link("x%20y.md")` becomes `#link("x y.pdf")`.
   */
  lemma LinkWithSpace(line: string, x: string, y: string)
    requires line == LinkOpen + (x + ("%20" + y)) + MdClose
    requires forall c :: c in x || c in y ==> c != '"' && c != '\\' && c != '%' && c != '$' && c != '\n'
    ensures RewriteLine(line) == LinkOpen + (x + (" " + y)) + PdfClose
  {
    var target := x + ("%20" + y);
    LinkStep(line, target);
    AfterLink(LinkOpen + target + PdfClose, x, y);
  }

  /** A line that is one markdown link: only the link rule acts on it. */
  lemma LinkStep(line: string, target: string)
    requires line == LinkOpen + target + MdClose && '"' !in target && '\n' !in target
    ensures ReplaceAll(LinkToPdf, line) == LinkOpen + target + PdfClose
  {
    MissingCharNotContained(target, MdClose, 3);
    LinkRetargetAtStart(target, "");
    assert ReplaceAll(LinkToPdf, "") == "";
    assert line == LinkOpen + target + MdClose + "";
  }

  /** What the last three rules do to a retargeted link whose target holds one `%20`. */
  lemma AfterLink(linked: string, x: string, y: string)
    requires linked == LinkOpen + (x + ("%20" + y)) + PdfClose
    requires forall c :: c in x || c in y ==> c != '\\' && c != '%' && c != '$'
    ensures ReplaceAll(SingleLineEquation, ReplaceAll(DecodeSpace, ReplaceAll(Unescape, linked)))
         == LinkOpen + (x + (" " + y)) + PdfClose
  {
    var decoded := LinkOpen + (x + (" " + y)) + PdfClose;
    LinkedUnescaped(linked, x, y);
    LinkedDecoded(linked, x, y);
    LinkedNoEquation(decoded, x, y);
  }

  lemma LinkedUnescaped(linked: string, x: string, y: string)
    requires linked == LinkOpen + (x + ("%20" + y)) + PdfClose
    requires forall c :: c in x || c in y ==> c != '\\'
    ensures ReplaceAll(Unescape, linked) == linked
  {
    assert '\\' !in linked;
    MissingCharNotContained(linked, "\\#pagebreak", 0);
    LiteralUntouched("\\#pagebreak", "#pagebreak", linked);
  }

  lemma LinkedDecoded(linked: string, x: string, y: string)
    requires linked == LinkOpen + (x + ("%20" + y)) + PdfClose
    requires forall c :: c in x || c in y ==> c != '%'
    ensures ReplaceAll(DecodeSpace, linked) == LinkOpen + (x + (" " + y)) + PdfClose
  {
    var u := LinkOpen + x;
    var v := y + PdfClose;
    assert '%' !in u && '%' !in v;
    assert linked == u + ("%20" + v);
    DecodeStep(linked, u, v);
  }

  lemma LinkedNoEquation(decoded: string, x: string, y: string)
    requires decoded == LinkOpen + (x + (" " + y)) + PdfClose
    requires forall c :: c in x || c in y ==> c != '$'
    ensures ReplaceAll(SingleLineEquation, decoded) == decoded
  {
    assert '$' !in decoded;
    MissingCharNotContained(decoded, Marker, 15);
    EquationsUntouched(decoded);
  }

  /** Without `"` and `\` the link rule and the unescaping have nothing to do. */
  lemma FirstTwoUntouched(line: string)
    requires '"' !in line && '\\' !in line
    ensures ReplaceAll(Unescape, ReplaceAll(LinkToPdf, line)) == line
  {
    LinkSkips(line);
    MissingCharNotContained(line, "\\#pagebreak", 0);
    LiteralUntouched("\\#pagebreak", "#pagebreak", line);
  }

  /** A line that is exactly one single-line equation. */
  lemma SingleAlone(s: string, a: string, b: string)
    requires s == Marker + (a + "$") + (" " + ("$" + (b + "$")))
    requires '\n' !in a && '\n' !in b && '$' !in b
    ensures ReplaceAll(SingleLineEquation, s) == Cases(a, b)
  {
    var e: string := "";
    assert "$ $" == "$" + (" " + "$");
    assert s == Marker + (a + ("$ $" + (b + ("$" + e))));
    MissingCharNotContained(e, Marker, 0);
    assert e + SingleSource(a, b, e) == s;
    SingleExact(s, e, a, b, e);
    assert e + (Cases(a, b) + e) == Cases(a, b);
  }

  /** The one `%20` between two `%`-free texts becomes a space. */
  lemma DecodeStep(line: string, x: string, y: string)
    requires line == x + ("%20" + y) && '%' !in x && '%' !in y
    ensures ReplaceAll(DecodeSpace, line) == x + (" " + y)
  {
    Reassociate(x, "%20", y);
    Reassociate(x, " ", y);
    DecodeFirst(x, y);
  }

  lemma DecodeFirst(x: string, y: string)
    requires '%' !in x && '%' !in y
    ensures ReplaceAll(DecodeSpace, x + "%20" + y) == x + " " + y
  {
    MissingCharNotContained(x, "%20", 0);
    FirstCharUniqueBorderFree("%20");
    LiteralFirst("%20", " ", x, y);
    MissingCharNotContained(y, "%20", 0);
    LiteralUntouched("%20", " ", y);
  }

  lemma Reassociate(x: string, m: string, y: string)
    ensures x + (m + y) == x + m + y
  {
  }

  // ------------------------------------------------------------ the whole body

  /** Every rewritten line is a line: the rules never bring in a newline. */
  lemma TransformBodyLines(lines: seq<string>)
    ensures AllLines(TransformBody(lines))
  {
    var merged := MergedLines(lines);
    forall i | 0 <= i < |merged|
      ensures '\n' !in TransformBody(lines)[i]
    {
      RewriteLineNoNewline(merged[i]);
    }
  }

  /** Merging equations and rewriting never adds a line to the body. */
  lemma LineCountBound(lines: seq<string>)
    requires AllLines(lines)
    ensures |TransformBody(lines)| <= |lines|
  {
    var text := Join(lines);
    NewlinesNotIncreased(MultiLineEquation, text);
    LinesCount(ReplaceAll(MultiLineEquation, text));
    if |lines| > 0 {
      JoinNewlineCount(lines);
    } else {
      assert ReplaceAll(MultiLineEquation, text) == "";
      assert Split("") == [""];
    }
  }

  /**
   * Without the equation marker the body keeps its lines, each rewritten on
   * its own; only a trailing empty line is lost, as `str::lines` drops it.
   */
  lemma NoEquationBody(lines: seq<string>)
    requires AllLines(lines)
    requires forall i :: 0 <= i < |lines| ==> !Contains(lines[i], Marker)
    ensures |TransformBody(lines)| == |DropTrailingEmpty(lines)|
    ensures forall i :: 0 <= i < |TransformBody(lines)| ==>
      TransformBody(lines)[i] == RewriteLine(DropTrailingEmpty(lines)[i])
  {
    JoinNotContains(lines, Marker);
    EquationsUntouched(Join(lines));
    LinesJoin(lines);
  }

  /** A body without any of the four notations comes out line for line as it went in. */
  lemma PlainBody(lines: seq<string>)
    requires AllLines(lines)
    requires forall i :: 0 <= i < |lines| ==>
      !Contains(lines[i], MdClose) && !Contains(lines[i], "\\#pagebreak") &&
      !Contains(lines[i], "%20") && !Contains(lines[i], Marker)
    ensures TransformBody(lines) == DropTrailingEmpty(lines)
  {
    NoEquationBody(lines);
    var d := DropTrailingEmpty(lines);
    forall i | 0 <= i < |d|
      ensures TransformBody(lines)[i] == d[i]
    {
      LineUnchanged(d[i]);
    }
  }

  /**
   * An equation split over two lines, `systemequation $a$` then `$b$`,
   * becomes the single line `$cases(a, b)$`.
   */
  lemma TwoLineEquation(lines: seq<string>, a: string, b: string)
    requires lines == [Marker + (a + "$"), "$" + (b + "$")]
    requires AllIn(a, BranchChar) && AllIn(b, BranchChar)
    requires forall c :: c in a || c in b ==> c != '"' && c != '\\' && c != '%'
    ensures TransformBody(lines) == [Cases(a, b)]
  {
    var e: string := "";
    var nl: string := "\n";
    var text := Join(lines);
    assert lines[1..] == [lines[1]];
    assert Join(lines[1..]) == lines[1];
    assert text == lines[0] + "\n" + lines[1];
    assert "$" + e == "$";
    assert text == MultiSource(a, nl, b, e);
    MissingCharNotContained(e, Marker, 0);
    assert e + MultiSource(a, nl, b, e) == text;
    assert AllIn(nl, Space);
    MultiExact(text, e, a, nl, b, e);
    var c := Cases(a, b);
    assert ReplaceAll(MultiLineEquation, text) == c;
    CasesNoNewline(a, b);
    LinesJoin([c]);
    assert MergedLines(lines) == [c];
    CasesPlain(a, b);
    LineUnchanged(c);
  }

  /** The documented two-line example: the pair of lines becomes one `cases` line. */
  lemma TwoLineExample(lines: seq<string>)
    requires lines == ["systemequation $x+y=1$", "$x-y=2$"]
    ensures TransformBody(lines) == ["$cases(x+y=1, x-y=2)$"]
  {
    var a, b := "x+y=1", "x-y=2";
    assert lines[0] == Marker + (a + "$");
    assert lines[1] == "$" + (b + "$");
    assert lines == [Marker + (a + "$"), "$" + (b + "$")];
    TwoLineEquation(lines, a, b);
    ExampleCases(a, b);
  }

  /** The same equation written on one line becomes the same `cases` line. */
  lemma OneLineExample(line: string)
    requires line == "systemequation $x+y=1$ $x-y=2$"
    ensures RewriteLine(line) == "$cases(x+y=1, x-y=2)$"
  {
    var a, b := "x+y=1", "x-y=2";
    assert line == Marker + (a + "$") + (" " + ("$" + (b + "$")));
    SingleLine(line, a, b);
    ExampleCases(a, b);
  }

  lemma ExampleCases(a: string, b: string)
    requires a == "x+y=1" && b == "x-y=2"
    ensures Cases(a, b) == "$cases(x+y=1, x-y=2)$"
  {
  }

  /** A `cases` expression over plain branches holds none of the four notations. */
  lemma CasesPlain(a: string, b: string)
    requires AllIn(a, BranchChar) && AllIn(b, BranchChar)
    requires forall c :: c in a || c in b ==> c != '"' && c != '\\' && c != '%'
    ensures !Contains(Cases(a, b), MdClose) && !Contains(Cases(a, b), "\\#pagebreak")
    ensures !Contains(Cases(a, b), "%20") && !Contains(Cases(a, b), Marker)
  {
    var c := Cases(a, b);
    assert '"' !in a && '\\' !in a && '%' !in a;
    assert '"' !in b && '\\' !in b && '%' !in b;
    assert '"' !in c && '\\' !in c && '%' !in c;
    MissingCharNotContained(c, MdClose, 3);
    MissingCharNotContained(c, "\\#pagebreak", 0);
    MissingCharNotContained(c, "%20", 0);
    CasesNoMarker(a, b);
  }

  /** In a `cases` expression a `$` stands only first and last, so no marker fits in it. */
  lemma CasesNoMarker(a: string, b: string)
    requires AllIn(a, BranchChar) && AllIn(b, BranchChar)
    ensures !Contains(Cases(a, b), Marker)
  {
    var c := Cases(a, b);
    assert c[7 + |a|] == ',' && c[8 + |a|] == ' ' && c[|c| - 2] == ')';
    forall k | 0 <= k <= |c|
      ensures !StartsWith(c[k..], Marker)
    {
      if k + |Marker| <= |c| {
        // the marker's `$` would sit at j, after a space; in a `cases`
        // expression a `$` stands only first and last, and the last one follows `)`
        var j := k + 15;
        assert c[j] != '$' || c[j - 1] != ' ' by {
          if j < 7 + |a| {
            assert c[j] == a[j - 7];
            assert InClass(BranchChar, a[j - 7]);
          } else if 9 + |a| <= j < 9 + |a| + |b| {
            assert c[j] == b[j - 9 - |a|];
            assert InClass(BranchChar, b[j - 9 - |a|]);
          }
        }
        assert c[k..][..|Marker|][15] == c[j] && c[k..][..|Marker|][14] == c[j - 1];
      }
    }
  }
}

=== FILE: cli.dfy ===
/**
 * The command line and the choice of input files: `--single-file PATH`
 * selects one file, anything else converts every eligible markdown file of
 * the working directory.  File names are split into stem and extension the
 * way Rust's `Path::file_stem` and `Path::extension` split them.
 */
module Cli {
  import opened Text

  /** The flag that selects a single file. */
  const SingleFileFlag: string := "--single-file"
  /** Printed when the flag has no file name after it. */
  const MissingFileName: string := "--single-file requires a filename argument"

  datatype Invocation =
    | AllFiles
      // convert every eligible file of the working directory
    | SingleFile(path: string)
      // convert the file named on the command line
    | UsageError(message: string, status: int)
      // print `message` and exit with `status`

  /** What the program does with its argument vector; `args[0]` is the program name. */
  function ParseArgs(args: seq<string>): (inv: Invocation)
    ensures inv.UsageError? ==> inv.status == 1 && inv.message == MissingFileName
  {
    if |args| > 1 && args[1] == SingleFileFlag then
      if |args| > 2 then SingleFile(args[2]) else UsageError(MissingFileName, 1)
    else AllFiles
  }

  /** The three cases of the command line, each characterised exactly. */
  lemma ParseArgsCases(args: seq<string>)
    ensures ParseArgs(args).UsageError? <==> |args| == 2 && args[1] == SingleFileFlag
    ensures ParseArgs(args).SingleFile? <==> |args| > 2 && args[1] == SingleFileFlag
    ensures ParseArgs(args).SingleFile? ==> ParseArgs(args).path == args[2]
    ensures ParseArgs(args).AllFiles? <==> |args| < 2 || args[1] != SingleFileFlag
  {
  }

  /** Arguments after the file name, and every argument after an unknown first one, are ignored. */
  lemma ExtraArgumentsIgnored(args: seq<string>, extra: seq<string>)
    requires |args| > 2 || (|args| == 2 && args[1] != SingleFileFlag)
    ensures ParseArgs(args + extra) == ParseArgs(args)
  {
    assert (args + extra)[1] == args[1];
    if |args| > 2 {
      assert (args + extra)[2] == args[2];
    }
  }

  /** A command line that asks for `inv`. */
  function CommandLine(program: string, inv: Invocation): seq<string> {
    match inv
    case AllFiles => [program]
    case SingleFile(path) => [program, SingleFileFlag, path]
    case UsageError(_, _) => [program, SingleFileFlag]
  }

  /** Every invocation the program can make of its arguments is asked for by some command line. */
  lemma CommandLineRoundTrip(program: string, inv: Invocation)
    requires inv.UsageError? ==> inv == UsageError(MissingFileName, 1)
    ensures ParseArgs(CommandLine(program, inv)) == inv
  {
  }

  // ------------------------------------------------------------ file names

  /** Position of the last `.` of a file name. */
  function LastDot(name: string): Option<nat> {
    LastBefore(name, 0, |name|, '.')
  }

  /**
   * `Path::file_stem` of a file name: the part before the last `.`, unless
   * there is no `.`, the only `.` opens the name, or the name is `..`.
   */
  function Stem(name: string): string {
    if name == ".." then name
    else
      match LastDot(name)
      case None => name
      case Some(i) => if i == 0 then name else name[..i]
  }

  /** `Path::extension` of a file name: the part after the last `.`, under the same exceptions. */
  function Extension(name: string): Option<string> {
    if name == ".." then None
    else
      match LastDot(name)
      case None => None
      case Some(i) => if i == 0 then None else Some(name[i + 1..])
  }

  /** When there is an extension, the name is the stem, a `.`, and the extension. */
  lemma StemDotExtension(name: string)
    requires Extension(name).Some?
    ensures name == Stem(name) + "." + Extension(name).value
    ensures |Stem(name)| > 0
  {
    var i := LastDot(name).value;
    assert name == name[..i] + [name[i]] + name[i + 1..];
  }

  /** A dot-free extension is split off a non-empty stem. */
  lemma SplitAtExtension(x: string, e: string)
    requires |x| > 0 && |e| > 0 && '.' !in e
    ensures Stem(x + "." + e) == x
    ensures Extension(x + "." + e) == Some(e)
  {
    var name := x + "." + e;
    assert name[|x|] == '.';
    forall j | |x| < j < |name|
      ensures name[j] != '.'
    {
      assert name[j] == e[j - |x| - 1];
    }
    LastBeforeAt(name, 0, |name|, '.', |x|);
    assert name[..|x|] == x;
    assert name[|x| + 1..] == e;
  }

  /** The path `read_dir(".")` reports for a directory entry. */
  function EntryPath(name: string): string {
    "./" + name
  }

  /** An entry is converted when its extension is `md` and its path does not end in `.comp.md`. */
  predicate Eligible(name: string) {
    !EndsWith(EntryPath(name), ".comp.md") && Extension(name) == Some("md")
  }

  /** The `./` before an entry name never completes a `.comp.md` ending. */
  lemma CompEnding(name: string)
    ensures EndsWith(EntryPath(name), ".comp.md") <==> EndsWith(name, ".comp.md")
  {
    var p := EntryPath(name);
    if |name| >= 8 {
      assert p[|p| - 8..] == name[|name| - 8..];
    } else if |p| >= 8 {
      // the ending would take in the `/` of `./`, and `.comp.md` has none
      assert p[|p| - 8..][9 - |p|] == '/';
    }
  }

  lemma MdExtension(name: string)
    ensures Extension(name) == Some("md") <==> |name| > 3 && EndsWith(name, ".md")
  {
    if |name| > 3 && EndsWith(name, ".md") {
      var x := name[..|name| - 3];
      assert name == x + "." + "md";
      SplitAtExtension(x, "md");
    }
    if Extension(name) == Some("md") {
      StemDotExtension(name);
    }
  }

  /** Exactly the markdown files with something before `.md` and not ending in `.comp.md` are converted. */
  lemma EligibleIff(name: string)
    ensures Eligible(name) <==> |name| > 3 && EndsWith(name, ".md") && !EndsWith(name, ".comp.md")
  {
    CompEnding(name);
    MdExtension(name);
  }

  /** The output of an eligible file sits next to it, with `.typ` in place of `.md`. */
  function OutputName(name: string): string {
    Stem(name) + ".typ"
  }

  lemma OutputNameOfEligible(name: string)
    requires Eligible(name)
    ensures OutputName(name) == name[..|name| - 3] + ".typ"
    ensures Stem(OutputName(name)) == Stem(name)
  {
    EligibleIff(name);
    var x := name[..|name| - 3];
    assert name == x + "." + "md";
    SplitAtExtension(x, "md");
    assert x + ".typ" == x + "." + "typ";
    SplitAtExtension(x, "typ");
  }

  // ------------------------------------------------------------ selection

  /** The eligible entries, in directory order. */
  function SelectAll(names: seq<string>): (r: seq<string>)
    ensures |r| <= |names|
    ensures forall n :: n in r <==> n in names && Eligible(n)
  {
    if |names| == 0 then []
    else
      var rest := SelectAll(names[1..]);
      assert forall n :: n in names <==> n == names[0] || n in names[1..];
      if Eligible(names[0]) then [names[0]] + rest else rest
  }

  /** Selecting twice selects nothing more: every selected entry is eligible. */
  lemma {:induction false} SelectAllIdempotent(names: seq<string>)
    ensures SelectAll(SelectAll(names)) == SelectAll(names)
  {
    if |names| > 0 {
      SelectAllIdempotent(names[1..]);
      var rest := SelectAll(names[1..]);
      if Eligible(names[0]) {
        assert ([names[0]] + rest)[1..] == rest;
      }
    }
  }

  /** Selection distributes over concatenation. */
  lemma {:induction false} SelectAllConcat(a: seq<string>, b: seq<string>)
    ensures SelectAll(a + b) == SelectAll(a) + SelectAll(b)
  {
    if |a| == 0 {
      assert a + b == b;
    } else {
      assert (a + b)[0] == a[0];
      assert (a + b)[1..] == a[1..] + b;
      SelectAllConcat(a[1..], b);
    }
  }

  /**
   * Selection keeps the directory's order and each entry's multiplicity: an
   * entry stays exactly where it was among the selected ones when it is
   * eligible, and drops out otherwise.
   */
  lemma SelectAllKeepsOrder(a: seq<string>, n: string, b: seq<string>)
    ensures SelectAll(a + [n] + b) == SelectAll(a) + (if Eligible(n) then [n] else []) + SelectAll(b)
  {
    SelectAllConcat(a + [n], b);
    SelectAllConcat(a, [n]);
    assert [n][1..] == [];
  }

  /**
   * The entries a run converts.  For `--single-file` the comparison of an
   * entry with the given path is the parameter `isTarget`.
   */
  function SelectFiles(inv: Invocation, names: seq<string>, isTarget: (string, string) -> bool): (r: seq<string>)
    requires !inv.UsageError?
    ensures inv.AllFiles? ==> forall n :: n in r <==> n in names && Eligible(n)
    ensures inv.SingleFile? ==> forall n :: n in r <==> n in names && isTarget(inv.path, n)
  {
    match inv
    case AllFiles => SelectAll(names)
    case SingleFile(path) => Targets(path, names, isTarget)
  }

  function Targets(path: string, names: seq<string>, isTarget: (string, string) -> bool): (r: seq<string>)
    ensures forall n :: n in r <==> n in names && isTarget(path, n)
  {
    if |names| == 0 then []
    else
      var rest := Targets(path, names[1..], isTarget);
      assert forall n :: n in names <==> n == names[0] || n in names[1..];
      if isTarget(path, names[0]) then [names[0]] + rest else rest
  }
}

=== FILE: equations.dfy ===
/**
 * The two equation rules of `add_header_to_file`: a pair of equations after
 * the `systemequation` marker becomes one `cases` expression, whether the two
 * equations stand on separate lines or on the same line.
 */
module Equations {
  import opened Text
  import opened Rewrite

  /** `systemequation $a$`, white space `w`, `$b$`, then the text `r`: the notation the multi-line rule rewrites. */
  function MultiSource(a: string, w: string, b: string, r: string): string {
    Marker + (a + ("$" + (w + ("$" + (b + ("$" + r))))))
  }

  /** `systemequation $a$ $b$`, then the text `r`: the notation the single-line rule rewrites. */
  function SingleSource(a: string, b: string, r: string): string {
    Marker + (a + ("$ $" + (b + ("$" + r))))
  }

  lemma MarkerBorderFree()
    ensures BorderFree(Marker)
  {
    LastCharUniqueBorderFree(Marker);
  }

  /** Neither equation rule touches a text without the marker. */
  lemma EquationsUntouched(s: string)
    requires !Contains(s, Marker)
    ensures ReplaceAll(MultiLineEquation, s) == s
    ensures ReplaceAll(SingleLineEquation, s) == s
  {
    forall k | 0 <= k < |s|
      ensures MatchAt(MultiLineEquation, s[k..]).None?
      ensures MatchAt(SingleLineEquation, s[k..]).None?
    {
      assert s[k..][0..] == s[k..];
    }
    NoMatchUnchanged(MultiLineEquation, s);
    NoMatchUnchanged(SingleLineEquation, s);
  }

  /** Neither rule matches inside a prefix without the marker, whatever follows it. */
  lemma NoneBefore(s: string, p: string, y: string)
    requires s == p + (Marker + y) && !Contains(p, Marker)
    ensures forall k :: 0 <= k < |p| ==> MatchAt(MultiLineEquation, s[k..]).None?
    ensures forall k :: 0 <= k < |p| ==> MatchAt(SingleLineEquation, s[k..]).None?
  {
    MarkerBorderFree();
    NoOccurrenceBefore(p, Marker, y);
    assert p + Marker + y == s;
  }

  // ------------------------------------------------------------ multi-line rule

  /** A multi-line equation at the start of the text is matched, with its two branches in order. */
  lemma MultiAtExact(s: string, a: string, w: string, b: string, r: string)
    requires s == MultiSource(a, w, b, r)
    requires AllIn(a, BranchChar) && AllIn(b, BranchChar)
    requires AllIn(w, Space) && '\n' in w
    ensures MultiAt(s) == Some(Hit(|s| - |r|, Cases(a, b)))
  {
    var k := |Marker| + |a|;
    var m := k + 1 + |w|;
    var e := m + 1 + |b|;
    MultiRuns(s, a, w, b, r, k, m, e, |s| - |r|);
    MultiAtKnown(s, k, m, e, a, b, |s| - |r|);
  }

  /** Where the three runs of a multi-line equation end. */
  lemma MultiRuns(s: string, a: string, w: string, b: string, r: string, k: nat, m: nat, e: nat, len: nat)
    requires s == MultiSource(a, w, b, r)
    requires AllIn(a, BranchChar) && AllIn(b, BranchChar)
    requires AllIn(w, Space) && '\n' in w
    requires k == |Marker| + |a| && m == k + 1 + |w| && e == m + 1 + |b| && len == |s| - |r|
    ensures MultiRunsAt(s, k, m, e) && s[|Marker|..k] == a && s[m + 1..e] == b && len == e + 1
  {
    FirstRun(s, a, w, b, r, k);
    MiddleRun(s, a, w, b, r, k, m);
    LastRun(s, a, w, b, r, m, e);
    MultiLength(s, a, w, b, r, e, len);
  }

  lemma MultiLength(s: string, a: string, w: string, b: string, r: string, e: nat, len: nat)
    requires s == MultiSource(a, w, b, r)
    requires e == |Marker| + |a| + 2 + |w| + |b| && len == |s| - |r|
    ensures len == e + 1 && e < |s|
  {
  }

  lemma FirstRun(s: string, a: string, w: string, b: string, r: string, k: nat)
    requires s == MultiSource(a, w, b, r) && AllIn(a, BranchChar) && k == |Marker| + |a|
    ensures StartsWith(s, Marker) && s[|Marker|..k] == a
    ensures RunEnd(s, |Marker|, BranchChar) == k && s[k] == '$'
  {
    MultiShape(s, a, w, b, r);
    RunPiece(s, Marker, a, '$', w + ("$" + (b + ("$" + r))), BranchChar);
  }

  lemma MiddleRun(s: string, a: string, w: string, b: string, r: string, k: nat, m: nat)
    requires s == MultiSource(a, w, b, r) && AllIn(w, Space) && '\n' in w
    requires k == |Marker| + |a| && m == k + 1 + |w|
    ensures RunEnd(s, k + 1, Space) == m && s[m] == '$' && '\n' in s[k + 1..m]
  {
    MultiShape(s, a, w, b, r);
    assert !IsSpace('$');
    RunPiece(s, Marker + (a + "$"), w, '$', b + ("$" + r), Space);
  }

  lemma LastRun(s: string, a: string, w: string, b: string, r: string, m: nat, e: nat)
    requires s == MultiSource(a, w, b, r) && AllIn(b, BranchChar)
    requires m == |Marker| + |a| + 1 + |w| && e == m + 1 + |b|
    ensures RunEnd(s, m + 1, BranchChar) == e && s[e] == '$' && s[m + 1..e] == b
  {
    var p2 := (Marker + (a + "$")) + (w + "$");
    MultiShape(s, a, w, b, r);
    RunPiece(s, p2, b, '$', r, BranchChar);
  }

  /** The facts `MultiAt` checks: three runs, each closed by a `$`, with a newline in the middle one. */
  predicate MultiRunsAt(s: string, k: nat, m: nat, e: nat) {
    StartsWith(s, Marker) && |Marker| <= k < m < e < |s|
    && RunEnd(s, |Marker|, BranchChar) == k && s[k] == '$'
    && RunEnd(s, k + 1, Space) == m && s[m] == '$' && '\n' in s[k + 1..m]
    && RunEnd(s, m + 1, BranchChar) == e && s[e] == '$'
  }

  lemma MultiAtKnown(s: string, k: nat, m: nat, e: nat, a: string, b: string, len: nat)
    requires MultiRunsAt(s, k, m, e) && s[|Marker|..k] == a && s[m + 1..e] == b && len == e + 1
    ensures MultiAt(s) == Some(Hit(len, Cases(a, b)))
  {
    MultiAtFrom(s, k, m, e);
  }

  /** The multi-line notation read as its three runs and their closing `$`. */
  lemma MultiShape(s: string, a: string, w: string, b: string, r: string)
    requires s == MultiSource(a, w, b, r)
    ensures StartsWith(s, Marker)
    ensures s == Marker + (a + ("$" + (w + ("$" + (b + ("$" + r))))))
    ensures s == (Marker + (a + "$")) + (w + ("$" + (b + ("$" + r))))
    ensures s == ((Marker + (a + "$")) + (w + "$")) + (b + ("$" + r))
  {
    assert s[..|Marker|] == Marker;
  }

  /**
   * The first multi-line equation after a prefix without the marker becomes
   * `$cases(a, b)$`; the prefix is kept and the scan resumes after the
   * closing `$`.
   */
  lemma MultiExact(s: string, p: string, a: string, w: string, b: string, r: string)
    requires s == p + MultiSource(a, w, b, r)
    requires !Contains(p, Marker)
    requires AllIn(a, BranchChar) && AllIn(b, BranchChar)
    requires AllIn(w, Space) && '\n' in w
    ensures ReplaceAll(MultiLineEquation, s) == p + (Cases(a, b) + ReplaceAll(MultiLineEquation, r))
  {
    var t := MultiSource(a, w, b, r);
    NoneBefore(s, p, a + ("$" + (w + ("$" + (b + ("$" + r))))));
    MultiMatch(t, a, w, b, r);
    HitAfterExact(MultiLineEquation, s, p, t, Hit(|t| - |r|, Cases(a, b)), r);
  }

  lemma MultiMatch(t: string, a: string, w: string, b: string, r: string)
    requires t == MultiSource(a, w, b, r)
    requires AllIn(a, BranchChar) && AllIn(b, BranchChar)
    requires AllIn(w, Space) && '\n' in w
    ensures |t| > 0 && MatchAt(MultiLineEquation, t) == Some(Hit(|t| - |r|, Cases(a, b)))
    ensures |t| - |r| <= |t| && t[|t| - |r|..] == r
  {
    MultiAtExact(t, a, w, b, r);
    assert t[|t| - |r|..] == r;
  }

  /** A newline or `|` in the first branch: no multi-line equation starts here. */
  lemma MultiRejectsFirst(s: string, a: string, c: char, r: string)
    requires s == Marker + (a + ([c] + r))
    requires AllIn(a, BranchChar) && (c == '\n' || c == '|')
    ensures MultiAt(s).None?
  {
    RunPiece(s, Marker, a, c, r, BranchChar);
  }

  /** White space without a newline between the branches: no multi-line equation starts here. */
  lemma MultiNeedsNewline(s: string, a: string, w: string, r: string)
    requires s == Marker + (a + ("$" + (w + ("$" + r))))
    requires AllIn(a, BranchChar) && AllIn(w, Space) && '\n' !in w
    ensures MultiAt(s).None?
  {
    var p1 := Marker + (a + "$");
    assert s == p1 + (w + ("$" + r));
    RunPiece(s, Marker, a, '$', w + ("$" + r), BranchChar);
    RunPiece(s, p1, w, '$', r, Space);
  }

  /** A newline or `|` in the second branch: no multi-line equation starts here. */
  lemma MultiRejectsSecond(s: string, a: string, w: string, b: string, c: char, r: string)
    requires s == Marker + (a + ("$" + (w + ("$" + (b + ([c] + r))))))
    requires AllIn(a, BranchChar) && AllIn(w, Space) && '\n' in w
    requires AllIn(b, BranchChar) && (c == '\n' || c == '|')
    ensures MultiAt(s).None?
  {
    var k := |Marker| + |a|;
    var m := k + 1 + |w|;
    SecondRuns(s, a, w, b, c, r, k, m, m + 1 + |b|);
  }

  lemma SecondRuns(s: string, a: string, w: string, b: string, c: char, r: string, k: nat, m: nat, e: nat)
    requires s == Marker + (a + ("$" + (w + ("$" + (b + ([c] + r))))))
    requires AllIn(a, BranchChar) && AllIn(w, Space) && AllIn(b, BranchChar) && !InClass(BranchChar, c)
    requires k == |Marker| + |a| && m == k + 1 + |w| && e == m + 1 + |b|
    ensures StartsWith(s, Marker) && e < |s|
    ensures RunEnd(s, |Marker|, BranchChar) == k && s[k] == '$'
    ensures RunEnd(s, k + 1, Space) == m && s[m] == '$'
    ensures RunEnd(s, m + 1, BranchChar) == e && s[e] == c
  {
    var p1 := Marker + (a + "$");
    var p2 := p1 + (w + "$");
    SecondShape(s, a, w, b, [c] + r);
    RunPiece(s, Marker, a, '$', w + ("$" + (b + ([c] + r))), BranchChar);
    RunPiece(s, p1, w, '$', b + ([c] + r), Space);
    RunPiece(s, p2, b, c, r, BranchChar);
  }

  lemma SecondShape(s: string, a: string, w: string, b: string, t: string)
    requires s == Marker + (a + ("$" + (w + ("$" + (b + t)))))
    ensures s == (Marker + (a + "$")) + (w + ("$" + (b + t)))
    ensures s == ((Marker + (a + "$")) + (w + "$")) + (b + t)
  {
  }

  /**
   * A `$` in the first branch closes it; when no white space follows that
   * `$`, no multi-line equation starts here.
   */
  lemma MultiRejectsDollarFirst(s: string, a: string, c: char, r: string)
    requires s == Marker + (a + ("$" + ([c] + r)))
    requires AllIn(a, BranchChar) && !IsSpace(c)
    ensures MultiAt(s).None?
  {
    var p1 := Marker + (a + "$");
    assert s == p1 + ("" + ([c] + r));
    RunPiece(s, Marker, a, '$', [c] + r, BranchChar);
    RunPiece(s, p1, "", c, r, Space);
  }

  /**
   * Every multi-line match is the notation: the marker, a first branch free of
   * newline, `|` and `$`, white space holding a newline, and a second branch
   * like the first, each branch closed by `$`.  The match ends at the last `$`
   * and yields `$cases(a, b)$`.  With `MultiAtExact` this pins down exactly
   * the texts at which the rule fires.
   */
  lemma MultiAtShape(s: string)
    requires MultiAt(s).Some?
    ensures exists a, w, b, r :: MultiNotation(s, a, w, b, r) && MultiAt(s).value == Hit(|s| - |r|, Cases(a, b))
  {
    var a, w, b, r := MultiAtParts(s);
  }

  /** The branches, the white space and the rest of a multi-line match. */
  lemma MultiAtParts(s: string) returns (a: string, w: string, b: string, r: string)
    requires MultiAt(s).Some?
    ensures MultiNotation(s, a, w, b, r) && MultiAt(s).value == Hit(|s| - |r|, Cases(a, b))
  {
    var k, m, e := MultiAtRuns(s);
    a, w, b, r := s[|Marker|..k], s[k + 1..m], s[m + 1..e], s[e + 1..];
    MultiNotationOf(s, k, m, e, a, w, b, r);
    MultiHitOf(s, k, m, e, a, b, |s| - |r|);
  }

  /**
   * `s` is the multi-line notation with branches `a` and `b`, white space `w`
   * and the text `r` after it: the marker, a first branch free of newline,
   * `|` and `$`, white space holding a newline, a second branch like the
   * first, each branch closed by `$`.
   */
  predicate MultiNotation(s: string, a: string, w: string, b: string, r: string) {
    s == MultiSource(a, w, b, r)
    && AllIn(a, BranchChar) && AllIn(b, BranchChar) && AllIn(w, Space) && '\n' in w
  }

  /** The ends of the three runs of a multi-line match. */
  lemma MultiAtRuns(s: string) returns (k: nat, m: nat, e: nat)
    requires MultiAt(s).Some?
    ensures MultiRunsAt(s, k, m, e)
  {
    k := RunEnd(s, |Marker|, BranchChar);
    m := RunEnd(s, k + 1, Space);
    e := RunEnd(s, m + 1, BranchChar);
  }

  /** The runs of a matched notation are its branches and its white space. */
  lemma MultiNotationOf(s: string, k: nat, m: nat, e: nat, a: string, w: string, b: string, r: string)
    requires MultiRunsAt(s, k, m, e)
    requires a == s[|Marker|..k] && w == s[k + 1..m] && b == s[m + 1..e] && r == s[e + 1..]
    ensures MultiNotation(s, a, w, b, r)
  {
    MultiSplit(s, k, m, e);
    RunAllIn(s, |Marker|, k, BranchChar);
    RunAllIn(s, k + 1, m, Space);
    RunAllIn(s, m + 1, e, BranchChar);
  }

  lemma MultiHitOf(s: string, k: nat, m: nat, e: nat, a: string, b: string, len: nat)
    requires MultiRunsAt(s, k, m, e)
    requires a == s[|Marker|..k] && b == s[m + 1..e] && len == e + 1
    ensures MultiAt(s).value == Hit(len, Cases(a, b))
  {
    MultiAtFrom(s, k, m, e);
  }

  /** The characters of a run, taken as a slice, are all in its class. */
  lemma RunAllIn(s: string, i: nat, j: nat, cls: CharClass)
    requires i <= |s| && j == RunEnd(s, i, cls)
    ensures AllIn(s[i..j], cls)
  {
    forall q | 0 <= q < j - i
      ensures InClass(cls, s[i..j][q])
    {
      assert s[i..j][q] == s[i + q];
    }
  }

  /** A text read as its three runs, each closed by `$`, is the notation they spell. */
  lemma MultiSplit(s: string, k: nat, m: nat, e: nat)
    requires StartsWith(s, Marker) && |Marker| <= k < m < e < |s|
    requires s[k] == '$' && s[m] == '$' && s[e] == '$'
    ensures s == MultiSource(s[|Marker|..k], s[k + 1..m], s[m + 1..e], s[e + 1..])
  {
    assert s == s[..|Marker|] + (s[|Marker|..k] + ([s[k]] + (s[k + 1..m] + ([s[m]] + (s[m + 1..e] + ([s[e]] + s[e + 1..]))))));
  }

  /** A text whose only marker opens a notation the multi-line rule rejects is left unchanged. */
  lemma RejectedUnchanged(s: string)
    requires |s| > 0 && MultiAt(s).None? && !Contains(s[1..], Marker)
    ensures ReplaceAll(MultiLineEquation, s) == s
  {
    forall k | 0 <= k < |s|
      ensures MatchAt(MultiLineEquation, s[k..]).None?
    {
      if k > 0 {
        assert s[1..][k - 1..] == s[k..];
        assert !StartsWith(s[1..][k - 1..], Marker);
      }
    }
    NoMatchUnchanged(MultiLineEquation, s);
  }

  /**
   * A `$` inside the second branch does not stop the rule: the branch ends at
   * that `$` and the rest of it is left behind the `cases` expression.
   */
  lemma DollarEndsSecondBranch(a: string, w: string, b: string, z: string)
    requires AllIn(a, BranchChar) && AllIn(b, BranchChar) && AllIn(z, BranchChar)
    requires AllIn(w, Space) && '\n' in w
    ensures ReplaceAll(MultiLineEquation, MultiSource(a, w, b, z + "$")) == Cases(a, b) + (z + "$")
  {
    var e: string := "";
    var r := z + "$";
    MissingCharNotContained(e, Marker, 0);
    assert e + MultiSource(a, w, b, r) == MultiSource(a, w, b, r);
    MultiExact(MultiSource(a, w, b, r), e, a, w, b, r);
    DollarTailUntouched(z);
    assert e + (Cases(a, b) + r) == Cases(a, b) + r;
  }

  /** A multi-line equation needs more text than the marker alone. */
  lemma MultiNeedsRoom(s: string)
    requires |s| <= |Marker|
    ensures MultiAt(s).None?
  {
  }

  /** The multi-line rule leaves `z$` alone when `z` has no `$`: a marker there could only end the text. */
  lemma DollarTailUntouched(z: string)
    requires AllIn(z, BranchChar)
    ensures ReplaceAll(MultiLineEquation, z + "$") == z + "$"
  {
    var s := z + "$";
    forall k | 0 <= k < |s|
      ensures MatchAt(MultiLineEquation, s[k..]).None?
    {
      if k + |Marker| < |s| {
        assert s[k..][..|Marker|][15] == z[k + 15];
      } else {
        MultiNeedsRoom(s[k..]);
      }
    }
    NoMatchUnchanged(MultiLineEquation, s);
  }

  // ------------------------------------------------------------ single-line rule

  /**
   * A single-line equation at the start of the text, running to the end of
   * its line, is matched.  The first branch may itself hold `$ $`: it extends
   * up to the last separator.
   */
  lemma SingleAtExact(s: string, a: string, b: string, r: string)
    requires s == SingleSource(a, b, r)
    requires '\n' !in a && '\n' !in b && '\n' !in r
    requires '$' !in b && '$' !in r
    ensures SingleAt(s) == Some(Hit(|s| - |r|, Cases(a, b)))
  {
    var i := |Marker|;
    var x := i + |a|;
    var z := x + 3 + |b|;
    SinglePieces(s, a, b, r);
    SingleLastDollar(s, a, b, r);
    SingleSeparator(s, a, b, r);
    SingleAtFrom(s, x, z);
  }

  /** Where the pieces of a single-line equation sit. */
  lemma SinglePieces(s: string, a: string, b: string, r: string)
    requires s == SingleSource(a, b, r)
    ensures StartsWith(s, Marker) && |s| == |Marker| + |a| + 4 + |b| + |r|
    ensures s[|Marker|..|Marker| + |a|] == a
    ensures s[|Marker| + |a| + 3..|Marker| + |a| + 3 + |b|] == b
    ensures SepAt(s, |Marker| + |a|) && s[|Marker| + |a| + 3 + |b|] == '$'
  {
    var i := |Marker|;
    var x := i + |a|;
    var z := x + 3 + |b|;
    assert s[..i] == Marker;
    assert s[i..x] == a;
    assert s[x + 3..z] == b;
  }

  /** The line runs to the end of the text and its last `$` closes the second branch. */
  lemma SingleLastDollar(s: string, a: string, b: string, r: string)
    requires s == SingleSource(a, b, r)
    requires '\n' !in a && '\n' !in b && '\n' !in r
    requires '$' !in b && '$' !in r
    ensures RunEnd(s, |Marker|, LineChar) == |s|
    ensures LastBefore(s, |Marker|, |s|, '$') == Some(|Marker| + |a| + 3 + |b|)
  {
    var z := |Marker| + |a| + 3 + |b|;
    assert s[z + 1..] == r;
    RunEndAt(s, |Marker|, |s|, LineChar);
    LastBeforeAt(s, |Marker|, |s|, '$', z);
  }

  /** The separator is the last `$ $` that leaves room for the second branch. */
  lemma SingleSeparator(s: string, a: string, b: string, r: string)
    requires s == SingleSource(a, b, r)
    requires '$' !in b
    ensures SepSearch(s, |Marker|, |Marker| + |a| + |b|) == Some(|Marker| + |a|)
  {
    var x := |Marker| + |a|;
    var z := x + 3 + |b|;
    SinglePieces(s, a, b, r);
    forall y | x < y <= z - 3
      ensures !SepAt(s, y)
    {
      assert s[y + 2] == b[y + 2 - x - 3];
    }
    SepSearchFinds(s, |Marker|, z - 3, x);
  }

  /**
   * On its own line, the first single-line equation after a prefix without
   * the marker becomes `$cases(a, b)$` and the rest of the line is kept.
   */
  lemma SingleExact(s: string, p: string, a: string, b: string, r: string)
    requires s == p + SingleSource(a, b, r)
    requires !Contains(p, Marker)
    requires '\n' !in a && '\n' !in b && '\n' !in r
    requires '$' !in b && '$' !in r
    ensures ReplaceAll(SingleLineEquation, s) == p + (Cases(a, b) + r)
  {
    SingleFirst(s, p, a, b, r);
    MissingCharNotContained(r, Marker, 15);
    EquationsUntouched(r);
  }

  lemma SingleFirst(s: string, p: string, a: string, b: string, r: string)
    requires s == p + SingleSource(a, b, r)
    requires !Contains(p, Marker)
    requires '\n' !in a && '\n' !in b && '\n' !in r
    requires '$' !in b && '$' !in r
    ensures ReplaceAll(SingleLineEquation, s) == p + (Cases(a, b) + ReplaceAll(SingleLineEquation, r))
  {
    var t := SingleSource(a, b, r);
    NoneBefore(s, p, a + ("$ $" + (b + ("$" + r))));
    SingleAtExact(t, a, b, r);
    assert t[|t| - |r|..] == r;
    HitAfterExact(SingleLineEquation, s, p, t, Hit(|t| - |r|, Cases(a, b)), r);
  }

  /** After a single-line match, the rest of that line holds no `$`: the rule fires at most once per line. */
  lemma SingleOncePerLine(s: string)
    requires SingleAt(s).Some?
    ensures forall j :: SingleAt(s).value.len <= j < RunEnd(s, |Marker|, LineChar) ==> s[j] != '$'
  {
  }
}

=== FILE: header.dfy ===
/**
 * The header `add_header_to_file` writes before the body: an import of the
 * project template, two comment lines, the `project.with` call carrying the
 * document title and the date in French, and the heading numbering rule.
 *
 * The date comes from the clock in the program; here it is a parameter.
 */
module Header {
  import opened Text
  import opened Rewrite

  // ------------------------------------------------------------ numbers

  function DigitChar(d: nat): (c: char)
    requires d < 10
    ensures IsDigit(c) && c as int - '0' as int == d
  {
    ('0' as int + d) as char
  }

  /** The decimal notation of `n`, as `{}` formats an unsigned integer. */
  function NatToDecimal(n: nat): (s: string)
    ensures |s| > 0 && AllIn(s, Digit)
    decreases n
  {
    if n < 10 then [DigitChar(n)] else NatToDecimal(n / 10) + [DigitChar(n % 10)]
  }

  /** The number a string of decimal digits denotes. */
  function DecimalValue(s: string): nat
    requires AllIn(s, Digit)
  {
    if |s| == 0 then 0
    else
      assert AllIn(s[..|s| - 1], Digit);
      DecimalValue(s[..|s| - 1]) * 10 + (s[|s| - 1] as int - '0' as int)
  }

  /** Reading the decimal notation of a number gives the number back. */
  lemma {:induction false} DecimalRoundTrip(n: nat)
    ensures DecimalValue(NatToDecimal(n)) == n
    decreases n
  {
    var s := NatToDecimal(n);
    if n >= 10 {
      DecimalRoundTrip(n / 10);
      assert s[..|s| - 1] == NatToDecimal(n / 10);
    }
  }

  /** The notation has no leading zero: it starts with `0` only for zero itself. */
  lemma {:induction false} NoLeadingZero(n: nat)
    ensures NatToDecimal(n)[0] == '0' <==> n == 0
    decreases n
  {
    if n >= 10 {
      NoLeadingZero(n / 10);
    }
  }

  /** The decimal notation of `i`, with a leading `-` when it is negative, as `{}` formats a signed integer. */
  function IntToDecimal(i: int): (s: string)
    ensures |s| > 0
  {
    if i < 0 then "-" + NatToDecimal(-i) else NatToDecimal(i)
  }

  /** The number an optionally signed string of decimal digits denotes. */
  function ParseInt(s: string): (r: Option<int>)
    ensures r.Some? ==> |s| > 0
  {
    if |s| > 1 && s[0] == '-' && AllIn(s[1..], Digit) then Some(0 - DecimalValue(s[1..]))
    else if |s| > 0 && AllIn(s, Digit) then Some(DecimalValue(s))
    else None
  }

  lemma IntRoundTrip(i: int)
    ensures ParseInt(IntToDecimal(i)) == Some(i)
  {
    var s := IntToDecimal(i);
    if i < 0 {
      assert s[1..] == NatToDecimal(-i);
      DecimalRoundTrip(-i);
    } else {
      DecimalRoundTrip(i);
      assert IsDigit(s[0]);
    }
  }

  // ------------------------------------------------------------ months

  /** The months in French, January first. */
  const MonthNames: seq<string> := [
    "Janvier", "F\U{E9}vrier", "Mars", "Avril", "Mai", "Juin",
    "Juillet", "Ao\U{FB}t", "Septembre", "Octobre", "Novembre", "D\U{E9}cembre"
  ]

  /** The French name of month `m` (1 to 12); any other number has the empty name. */
  function MonthName(m: nat): string {
    if 1 <= m <= 12 then MonthNames[m - 1] else ""
  }

  /** The month whose name is `name`, searching from the `i`-th name on. */
  function MonthFrom(name: string, i: nat): (r: Option<nat>)
    requires i <= 12
    ensures r.Some? ==> i < r.value <= 12 && MonthName(r.value) == name
    ensures r.None? ==> forall m :: i < m <= 12 ==> MonthName(m) != name
    decreases 12 - i
  {
    if i == 12 then None
    else if MonthNames[i] == name then Some(i + 1)
    else MonthFrom(name, i + 1)
  }

  /** The number of the month called `name`, if any. */
  function MonthNumber(name: string): (r: Option<nat>)
    ensures r.Some? ==> 1 <= r.value <= 12 && MonthName(r.value) == name
    ensures r.None? ==> forall m :: 1 <= m <= 12 ==> MonthName(m) != name
  {
    MonthFrom(name, 0)
  }

  lemma MonthNamesDistinct()
    ensures forall i, j :: 0 <= i < j < 12 ==> MonthNames[i] != MonthNames[j]
  {
  }

  /** The name of a month determines the month. */
  lemma MonthRoundTrip(m: nat)
    requires 1 <= m <= 12
    ensures MonthNumber(MonthName(m)) == Some(m)
  {
    MonthNamesDistinct();
  }

  /** Month names are non-empty and hold no comma. */
  lemma MonthNameShape(m: nat)
    requires 1 <= m <= 12
    ensures |MonthName(m)| > 0 && AllIn(MonthName(m), NotComma)
  {
  }

  // ------------------------------------------------------------ dates

  /** A calendar date as the clock reports it. */
  datatype Date = Date(day: nat, month: nat, year: int)

  /** `{day} {month name}, {year}`, for instance `5 Mars, 2024`. */
  function DateString(d: Date): string {
    NatToDecimal(d.day) + " " + MonthName(d.month) + ", " + IntToDecimal(d.year)
  }

  /** Reads a date written as `DateString` writes it. */
  function ParseDate(s: string): Option<Date> {
    var k := RunEnd(s, 0, Digit);
    if k == 0 || k == |s| || s[k] != ' ' then None
    else
      var c := RunEnd(s, k + 1, NotComma);
      if c + 1 >= |s| || s[c + 1] != ' ' then None
      else
        assert AllIn(s[..k], Digit);
        DateOf(DecimalValue(s[..k]), MonthNumber(s[k + 1..c]), ParseInt(s[c + 2..]))
  }

  /** The date made of a day, a month and a year, when the month and the year were read. */
  function DateOf(day: nat, month: Option<nat>, year: Option<int>): (r: Option<Date>)
    ensures r.Some? <==> month.Some? && year.Some?
    ensures r.Some? ==> r.value == Date(day, month.value, year.value)
  {
    if month.Some? && year.Some? then Some(Date(day, month.value, year.value)) else None
  }

  /** For a real month, the date string can be read back: no two dates are written the same way. */
  lemma DateRoundTrip(d: Date)
    requires 1 <= d.month <= 12
    ensures ParseDate(DateString(d)) == Some(d)
  {
    var day, name, year := NatToDecimal(d.day), MonthName(d.month), IntToDecimal(d.year);
    var s := DateString(d);
    var k := |day|;
    var c := k + 1 + |name|;
    assert s == day + " " + name + ", " + year;
    assert s[..k] == day && s[k] == ' ';
    assert s[k + 1..c] == name && s[c] == ',' && s[c + 1] == ' ';
    assert s[c + 2..] == year;
    assert !IsDigit(' ');
    RunEndAt(s, 0, k, Digit);
    MonthNameShape(d.month);
    RunEndAt(s, k + 1, c, NotComma);
    MonthRoundTrip(d.month);
    IntRoundTrip(d.year);
    DecimalRoundTrip(d.day);
    ParseDateAt(s, k, c, d);
  }

  /** What `ParseDate` reads once the ends of the day and of the month name are known. */
  lemma ParseDateAt(s: string, k: nat, c: nat, d: Date)
    requires 0 < k < c && c + 1 < |s|
    requires RunEnd(s, 0, Digit) == k && s[k] == ' '
    requires RunEnd(s, k + 1, NotComma) == c && s[c + 1] == ' '
    requires DecimalValue(s[..k]) == d.day
    requires MonthNumber(s[k + 1..c]) == Some(d.month)
    requires ParseInt(s[c + 2..]) == Some(d.year)
    ensures ParseDate(s) == Some(d)
  {
    assert ParseDate(s) == DateOf(d.day, Some(d.month), Some(d.year));
  }

  /** The fifth of March 2024 is written `5 Mars, 2024`. */
  lemma DateExample()
    ensures DateString(Date(5, 3, 2024)) == "5 Mars, 2024"
  {
    assert NatToDecimal(2024) == "2024";
  }

  /** An unknown month number leaves an empty month name between the day and the year. */
  lemma UnknownMonth(d: Date)
    requires d.month == 0 || d.month > 12
    ensures DateString(d) == NatToDecimal(d.day) + " , " + IntToDecimal(d.year)
  {
  }

  // ------------------------------------------------------------ title

  /** The rule `replace("_", " ")`. */
  const Underscores: Rule := Literal("_", " ")

  /** The document title: the file stem with every underscore turned into a space. */
  function Title(stem: string): string {
    ReplaceAll(Underscores, stem)
  }

  /** The title has the stem's length; each underscore becomes a space and every other character is kept. */
  lemma {:induction false} TitleSpaces(stem: string)
    ensures |Title(stem)| == |stem|
    ensures forall i :: 0 <= i < |stem| ==> Title(stem)[i] == (if stem[i] == '_' then ' ' else stem[i])
    decreases |stem|
  {
    if |stem| > 0 {
      TitleSpaces(stem[1..]);
      var t := Title(stem);
      var rest := Title(stem[1..]);
      assert t == [if stem[0] == '_' then ' ' else stem[0]] + rest by {
        if StartsWith(stem, "_") {
          MatchThenRest(Underscores, stem);
        } else {
          KeepStep(Underscores, stem);
        }
      }
    }
  }

  /** No underscore is left in a title. */
  lemma TitleNoUnderscore(stem: string)
    ensures '_' !in Title(stem)
  {
    TitleSpaces(stem);
  }

  // ------------------------------------------------------------ header

  // The fixed lines of the header.
  const ImportLine: string := "#import \"template.typ\": *"
  const LookLine: string := "// Take a look at the file `template.typ` in the file panel"
  const CustomizeLine: string := "// to customize this template and discover how it works."
  const ShowOpenLine: string := "#show: project.with("
  const AuthorsLine: string := "  authors: ("
  const AuthorLine: string := "    \"Lucas Duchet-Annez\","
  const AuthorsCloseLine: string := "  ),"
  const ShowCloseLine: string := ")"
  const NumberingLine: string := "#set heading(numbering: \"1.1.\")"

  /** What `writeln!` writes for `s`. */
  function Writeln(s: string): string {
    s + "\n"
  }

  /** The `project.with` call, line by line, with the title and the date as string arguments. */
  function ShowCall(title: string, date: string): seq<string> {
    [ ShowOpenLine,
      "  title: \"" + title + "\",",
      AuthorsLine,
      AuthorLine,
      AuthorsCloseLine,
      "  date: \"" + date + "\",",
      ShowCloseLine ]
  }

  /**
   * The five `writeln!` calls that open the output, in order.  A format
   * string with embedded newlines is written as the join of its lines; a
   * trailing `\n` in it is an empty last line.
   */
  function HeaderText(title: string, date: string): string {
    Writeln(Join([ImportLine, ""]))
    + Writeln(LookLine)
    + Writeln(CustomizeLine)
    + Writeln(Join(ShowCall(title, date) + [""]))
    + Writeln(Join([NumberingLine, ""]))
  }

  /** The header, line by line: fourteen lines. */
  function HeaderLines(title: string, date: string): seq<string> {
    [ImportLine, "", LookLine, CustomizeLine] + ShowCall(title, date) + ["", NumberingLine, ""]
  }

  /** One `writeln!` of several joined lines writes each of them followed by a newline. */
  lemma {:induction false} WritelnJoin(ls: seq<string>)
    requires |ls| > 0
    ensures Writeln(Join(ls)) == Unlines(ls)
  {
    if |ls| > 1 {
      WritelnJoin(ls[1..]);
    }
  }

  /** The header is its fourteen lines, each followed by a newline. */
  lemma HeaderIsLines(title: string, date: string)
    ensures HeaderText(title, date) == Unlines(HeaderLines(title, date))
    ensures |HeaderLines(title, date)| == 14
  {
    var imp := [ImportLine, ""];
    var show := ShowCall(title, date) + [""];
    var num := [NumberingLine, ""];
    WritelnJoin(imp);
    WritelnJoin([LookLine]);
    WritelnJoin([CustomizeLine]);
    WritelnJoin(show);
    WritelnJoin(num);
    assert HeaderLines(title, date) == imp + [LookLine] + [CustomizeLine] + show + num;
    UnlinesConcat(imp + [LookLine] + [CustomizeLine] + show, num);
    UnlinesConcat(imp + [LookLine] + [CustomizeLine], show);
    UnlinesConcat(imp + [LookLine], [CustomizeLine]);
    UnlinesConcat(imp, [LookLine]);
  }

  // The longer fixed lines cut into short pieces, one cut per lemma, so
  // that each piece can be inspected on its own.
  lemma LookCut()
    ensures LookLine == "// Take a look at the file `template.typ` " + "in the file panel"
  {
  }

  lemma LookFirstCut()
    ensures "// Take a look at the file `template.typ` " == "// Take a look at the file " + "`template.typ` "
  {
  }

  lemma LookSecondCut()
    ensures "// Take a look at the file " == "// Take a look at " + "the file "
  {
  }

  lemma LookIsLine()
    ensures '\n' !in LookLine
  {
    LookCut();
    LookFirstCut();
    LookSecondCut();
    assert '\n' !in "// Take a look at " && '\n' !in "the file " && '\n' !in "`template.typ` " && '\n' !in "in the file panel";
  }

  lemma CustomizeCut()
    ensures CustomizeLine == "// to customize this template and discover " + "how it works."
  {
  }

  lemma CustomizeFirstCut()
    ensures "// to customize this template and discover " == "// to customize this template and " + "discover "
  {
  }

  lemma CustomizeSecondCut()
    ensures "// to customize this template and " == "// to customize " + "this template and "
  {
  }

  lemma CustomizeIsLine()
    ensures '\n' !in CustomizeLine
  {
    CustomizeCut();
    CustomizeFirstCut();
    CustomizeSecondCut();
    assert '\n' !in "// to customize " && '\n' !in "this template and " && '\n' !in "discover " && '\n' !in "how it works.";
  }

  lemma NumberingCut()
    ensures NumberingLine == "#set heading(" + "numbering: \"1.1.\")"
  {
  }

  lemma AuthorCut()
    ensures AuthorLine == "    \"Lucas Duchet-" + "Annez\","
  {
  }

  lemma FixedAreLines()
    ensures '\n' !in ImportLine && '\n' !in NumberingLine && '\n' !in ShowOpenLine
  {
    NumberingCut();
    assert '\n' !in "#set heading(" && '\n' !in "numbering: \"1.1.\")";
  }

  lemma ShowCallLines(title: string, date: string)
    requires '\n' !in title && '\n' !in date
    ensures AllLines(ShowCall(title, date))
  {
    var show := ShowCall(title, date);
    FixedAreLines();
    AuthorCut();
    assert '\n' !in "    \"Lucas Duchet-" && '\n' !in "Annez\",";
    forall i | 0 <= i < |show|
      ensures '\n' !in show[i]
    {
      if i == 1 {
        assert show[1] == "  title: \"" + title + "\",";
      } else if i == 5 {
        assert show[5] == "  date: \"" + date + "\",";
      }
    }
  }

  /** Cutting the header text into lines gives the header lines, when neither the title nor the date holds a newline. */
  lemma HeaderLinesCut(title: string, date: string)
    requires '\n' !in title && '\n' !in date
    ensures Lines(HeaderText(title, date)) == HeaderLines(title, date)
  {
    HeaderIsLines(title, date);
    var show := ShowCall(title, date);
    ShowCallLines(title, date);
    LookIsLine();
    CustomizeIsLine();
    FixedAreLines();
    var top := [ImportLine, "", LookLine, CustomizeLine];
    var bottom := ["", NumberingLine, ""];
    assert AllLines(top) by {
      forall i | 0 <= i < 4
        ensures '\n' !in top[i]
      {
        if i == 0 {} else if i == 1 {} else if i == 2 {} else {}
      }
    }
    assert AllLines(bottom) by {
      forall i | 0 <= i < 3
        ensures '\n' !in bottom[i]
      {
        if i == 0 {} else if i == 1 {} else {}
      }
    }
    AllLinesConcat(top, show);
    AllLinesConcat(top + show, bottom);
    LinesUnlines(HeaderLines(title, date));
  }

  /** The title and the date stand on the sixth and tenth lines of the header, as string literals. */
  lemma HeaderFields(title: string, date: string)
    ensures HeaderLines(title, date)[5] == "  title: \"" + title + "\","
    ensures HeaderLines(title, date)[9] == "  date: \"" + date + "\","
  {
  }
}

=== FILE: links.dfy ===
/**
 * The link rule of `add_header_to_file`: a link call to a markdown file is
 * retargeted to the PDF the same run produces from it.
 */
module Links {
  import opened Text
  import opened Rewrite

  /** A string that does not start a match of `p`, at the first position of a suffix. */
  lemma NotContainsSuffix(s: string, k: nat, p: string)
    requires k <= |s| && !Contains(s, p)
    ensures !StartsWith(s[k..], p)
  {
    assert s[k..][0..] == s[k..];
  }

  /** A text without a `.md")` or without a `#link("` has no link to retarget. */
  lemma LinkUntouched(s: string)
    requires !Contains(s, MdClose) || !Contains(s, LinkOpen)
    ensures ReplaceAll(LinkToPdf, s) == s
  {
    forall k | 0 <= k < |s|
      ensures MatchAt(LinkToPdf, s[k..]).None?
    {
      if !Contains(s, MdClose) {
        SliceNotContains(s, k, |s|, MdClose);
        assert s[k..|s|] == s[k..];
      } else {
        NotContainsSuffix(s, k, LinkOpen);
      }
    }
    NoMatchUnchanged(LinkToPdf, s);
  }

  lemma LinkOpenBorderFree()
    ensures BorderFree(LinkOpen)
  {
    FirstCharUniqueBorderFree(LinkOpen);
  }

  lemma MdCloseBorderFree()
    ensures BorderFree(MdClose)
  {
    FirstCharUniqueBorderFree(MdClose);
  }

  lemma FindCloseExact(x: string, r: string)
    requires '\n' !in x && !Contains(x, MdClose)
    ensures FindBeforeNewline(x + MdClose + r, MdClose) == Some(|x|)
  {
    var t := x + MdClose + r;
    MdCloseBorderFree();
    NoOccurrenceBefore(x, MdClose, r);
    assert t[|x|..][..|MdClose|] == MdClose;
    assert t[..|x|] == x;
  }

  lemma LinkAtFound(t: string, p: nat)
    requires FindBeforeNewline(t, MdClose) == Some(p)
    ensures LinkAt(LinkOpen + t) == Some(Hit(|LinkOpen| + p + |MdClose|, LinkOpen + t[..p] + PdfClose))
  {
    var s := LinkOpen + t;
    assert s[..|LinkOpen|] == LinkOpen;
    assert s[|LinkOpen|..] == t;
  }

  /** The target runs to the first `.md")`, which must come before the end of the line. */
  lemma LinkAtExact(x: string, r: string)
    requires '\n' !in x && !Contains(x, MdClose)
    ensures LinkAt(LinkOpen + x + MdClose + r)
         == Some(Hit(|LinkOpen| + |x| + |MdClose|, LinkOpen + x + PdfClose))
  {
    var t := x + MdClose + r;
    FindCloseExact(x, r);
    LinkAtFound(t, |x|);
    assert t[..|x|] == x;
    assert LinkOpen + x + MdClose + r == LinkOpen + t;
  }

  /**
   * The first link call to a markdown file is retargeted to `.pdf`, the text
   * before it is kept and the scan resumes after its `.md")`.
   */
  lemma LinkRetarget(p: string, x: string, r: string)
    requires !Contains(p, LinkOpen)
    requires '\n' !in x && !Contains(x, MdClose)
    ensures ReplaceAll(LinkToPdf, p + (LinkOpen + x + MdClose + r))
         == p + ((LinkOpen + x + PdfClose) + ReplaceAll(LinkToPdf, r))
  {
    var t := LinkOpen + x + MdClose + r;
    var y := x + MdClose + r;
    assert LinkOpen + y == t;
    LinkNoneBefore(p, y);
    LinkAtExact(x, r);
    HitAfter(LinkToPdf, p + t, p, t);
    assert t[|LinkOpen| + |x| + |MdClose|..] == r;
  }

  lemma LinkNoneBefore(p: string, y: string)
    requires !Contains(p, LinkOpen)
    ensures forall k :: 0 <= k < |p| ==> MatchAt(LinkToPdf, (p + (LinkOpen + y))[k..]).None?
  {
    LinkOpenBorderFree();
    NoOccurrenceBefore(p, LinkOpen, y);
    assert p + LinkOpen + y == p + (LinkOpen + y);
  }

  /** A text that opens with a link call to a markdown file. */
  lemma LinkRetargetAtStart(x: string, r: string)
    requires '\n' !in x && !Contains(x, MdClose)
    ensures ReplaceAll(LinkToPdf, LinkOpen + x + MdClose + r) == LinkOpen + x + PdfClose + ReplaceAll(LinkToPdf, r)
  {
    var t := LinkOpen + x + MdClose + r;
    LinkAtExact(x, r);
    MatchThenRest(LinkToPdf, t);
    assert t[|LinkOpen| + |x| + |MdClose|..] == r;
  }

  /** `#link("notes.md")` becomes `#link("notes.pdf")`, whatever the file name. */
  lemma MarkdownLinkExample(name: string)
    requires '\n' !in name && !Contains(name, MdClose)
    ensures ReplaceAll(LinkToPdf, "#link(\"" + name + ".md\")") == "#link(\"" + name + ".pdf\")"
  {
    var e: string := "";
    LinkRetargetAtStart(name, e);
    assert LinkOpen + name + MdClose + e == "#link(\"" + name + ".md\")";
    assert ReplaceAll(LinkToPdf, e) == e;
    assert LinkOpen + name + PdfClose + e == "#link(\"" + name + ".pdf\")";
  }

  /** A link to anything else, `#link("img.png")`, is left alone. */
  lemma OtherLinkExample(s: string)
    requires s == "#link(\"img.png\")"
    ensures ReplaceAll(LinkToPdf, s) == s
  {
    MissingCharNotContained(s, MdClose, 2);
    LinkUntouched(s);
  }

  /**
   * The rule is not idempotent: the `.md")` left after a retargeted link
   * closes a longer target on a second pass.
   */
  lemma LinkNotIdempotent(x: string)
    requires '\n' !in x && !Contains(x, MdClose)
    ensures ReplaceAll(LinkToPdf, LinkOpen + x + MdClose + (" " + MdClose))
         == LinkOpen + x + PdfClose + (" " + MdClose)
    ensures ReplaceAll(LinkToPdf, LinkOpen + x + PdfClose + (" " + MdClose))
         == LinkOpen + x + PdfClose + (" " + PdfClose)
  {
    FirstPass(x);
    SecondPass(x);
  }

  lemma FirstPass(x: string)
    requires '\n' !in x && !Contains(x, MdClose)
    ensures ReplaceAll(LinkToPdf, LinkOpen + x + MdClose + (" " + MdClose))
         == LinkOpen + x + PdfClose + (" " + MdClose)
  {
    var rest := " " + MdClose;
    MissingCharNotContained(rest, LinkOpen, 0);
    LinkUntouched(rest);
    LinkRetargetAtStart(x, rest);
  }

  lemma SecondPass(x: string)
    requires '\n' !in x && !Contains(x, MdClose)
    ensures ReplaceAll(LinkToPdf, LinkOpen + x + PdfClose + (" " + MdClose))
         == LinkOpen + x + PdfClose + (" " + PdfClose)
  {
    var e: string, sp: string := "", " ";
    var y := x + PdfClose + sp;
    ContainsAcrossPdf(x);
    LinkRetargetAtStart(y, e);
    Regroup(LinkOpen, x, PdfClose, sp, MdClose);
    Regroup(LinkOpen, x, PdfClose, sp, PdfClose);
    assert ReplaceAll(LinkToPdf, e) == e;
  }

  lemma Regroup(a: string, b: string, c: string, d: string, f: string)
    ensures a + (b + c + d) + f + "" == a + b + c + (d + f)
  {
  }

  /** Appending `.pdf") ` to a text without `.md")` does not create one. */
  lemma ContainsAcrossPdf(x: string)
    requires !Contains(x, MdClose)
    ensures !Contains(x + PdfClose + " ", MdClose)
  {
    var q := PdfClose + " ";
    var s := x + q;
    assert x + PdfClose + " " == s;
    forall k | 0 <= k <= |s|
      ensures !StartsWith(s[k..], MdClose)
    {
      if k + |MdClose| <= |x| {
        assert s[k..][..|MdClose|] == x[k..][..|MdClose|];
        assert x[k..][0..] == x[k..];
      } else if k + |MdClose| <= |s| {
        var w := s[k..][..|MdClose|];
        if k >= |x| {
          // `m` does not occur in `.pdf") `
          assert w[1] == q[k + 1 - |x|];
        } else {
          // the `.` that opens `.pdf") ` falls inside the window, where `.md")` has none
          assert w[|x| - k] == q[0];
        }
      }
    }
  }
}

=== FILE: pipeline.dfy ===
/**
 * One run of the converter.  Each selected markdown file is handed to
 * pandoc; when pandoc succeeds its output gets the header and the rewritten
 * body, and is then handed to typst.  The two external tools, the directory
 * listing and the clock are parameters: the model says what the program does
 * with what they report, not what they do.
 */
module Pipeline {
  import opened Text
  import opened Body
  import opened Header
  import opened Cli

  /** What running an external tool reported. */
  datatype ToolRun =
    | Succeeded
      // the tool ran and exited with success
    | Failed(stderr: string)
      // the tool ran and exited with failure; its standard error, decoded lossily
    | NotStarted(error: string)
      // the tool could not be started; the error's message

  /** What became of one input file. */
  datatype FileResult =
    | ConversionFailed(message: string)
      // pandoc failed: the message printed, and no output file
    | Converted(output: string, content: string, report: string)
      // the output file, its final content, and the line printed about typst

  /** The file the program writes: the header, then each body line followed by a newline. */
  function FileContent(title: string, date: string, pandocLines: seq<string>): string {
    HeaderText(title, date) + Unlines(TransformBody(pandocLines))
  }

  /** The line printed about typst for the output file `path`. */
  function TypstReport(path: string, typst: ToolRun): string {
    match typst
    case Succeeded => "File " + path + " successfully compiled with typst."
    case Failed(stderr) => "Failed to compile file " + path + " with typst: " + stderr
    case NotStarted(error) => "Failed to run typst on file " + path + ": " + error
  }

  /** The line about typst tells success from failure, and a failure line ends with what typst reported. */
  lemma TypstReportKinds(path: string, typst: ToolRun)
    ensures typst.Succeeded? <==> StartsWith(TypstReport(path, typst), "File ")
    ensures typst.Failed? ==> EndsWith(TypstReport(path, typst), typst.stderr)
    ensures typst.NotStarted? ==> EndsWith(TypstReport(path, typst), typst.error)
  {
    var r := TypstReport(path, typst);
    match typst
    case Succeeded =>
      assert r[..5] == "File ";
    case Failed(stderr) =>
      assert r[1] == 'a';
      assert r[|r| - |stderr|..] == stderr;
    case NotStarted(error) =>
      assert r[1] == 'a';
      assert r[|r| - |error|..] == error;
  }

  /**
   * One input file: `pandoc` reports `pandoc` and leaves `pandocOutput` in
   * the output file, `typst` reports `typst`, and the clock reads `date`.
   */
  function ProcessFile(name: string, date: Date, pandoc: ToolRun, pandocOutput: string, typst: ToolRun): FileResult {
    var output := OutputName(name);
    match pandoc
    case Succeeded =>
      var content := FileContent(Title(Stem(output)), DateString(date), Lines(pandocOutput));
      Converted(output, content, TypstReport(output, typst))
    case Failed(stderr) =>
      ConversionFailed("Failed to run pandoc on file " + EntryPath(name) + ": " + stderr)
    case NotStarted(error) =>
      ConversionFailed("Failed to run pandoc on file " + EntryPath(name) + ": " + error)
  }

  // ------------------------------------------------------------ the output file

  /** The output file is the header's fourteen lines followed by the rewritten body. */
  lemma ContentLines(title: string, date: string, pandocLines: seq<string>)
    requires '\n' !in title && '\n' !in date
    ensures Lines(FileContent(title, date, pandocLines)) == HeaderLines(title, date) + TransformBody(pandocLines)
  {
    var head := HeaderLines(title, date);
    var body := TransformBody(pandocLines);
    HeaderIsLines(title, date);
    HeaderLinesCut(title, date);
    TransformBodyLines(pandocLines);
    UnlinesConcat(head, body);
    AllLinesConcat(head, body);
    LinesUnlines(head + body);
  }

  /** The output file has at most fourteen lines more than pandoc wrote. */
  lemma ContentLineCount(title: string, date: string, pandocOutput: string)
    requires '\n' !in title && '\n' !in date
    ensures |Lines(FileContent(title, date, Lines(pandocOutput)))| <= 14 + |Lines(pandocOutput)|
  {
    ContentLines(title, date, Lines(pandocOutput));
    HeaderIsLines(title, date);
    LineCountBound(Lines(pandocOutput));
  }

  /** A date string never holds a newline. */
  lemma DateStringIsLine(d: Date)
    ensures '\n' !in DateString(d)
  {
    var day, year := NatToDecimal(d.day), IntToDecimal(d.year);
    assert '\n' !in day by {
      forall j | 0 <= j < |day|
        ensures day[j] != '\n'
      {
        assert InClass(Digit, day[j]);
      }
    }
    assert '\n' !in year by {
      var digits := NatToDecimal(if d.year < 0 then -d.year else d.year);
      forall j | 0 <= j < |digits|
        ensures digits[j] != '\n'
      {
        assert InClass(Digit, digits[j]);
      }
    }
    if 1 <= d.month <= 12 {
      MonthNameShape(d.month);
      assert '\n' !in MonthName(d.month) by {
        forall j | 0 <= j < |MonthName(d.month)|
          ensures MonthName(d.month)[j] != '\n'
        {
          assert InClass(NotComma, MonthName(d.month)[j]);
          MonthNameIsLine(d.month, j);
        }
      }
    }
  }

  lemma MonthNameIsLine(m: nat, j: nat)
    requires 1 <= m <= 12 && j < |MonthName(m)|
    ensures MonthName(m)[j] != '\n'
  {
  }

  // ------------------------------------------------------------ one file

  /** When pandoc fails nothing is written, and the message names the input. */
  lemma PandocFailureWritesNothing(name: string, date: Date, pandoc: ToolRun, pandocOutput: string, typst: ToolRun)
    requires !pandoc.Succeeded?
    ensures ProcessFile(name, date, pandoc, pandocOutput, typst).ConversionFailed?
    ensures StartsWith(ProcessFile(name, date, pandoc, pandocOutput, typst).message,
                       "Failed to run pandoc on file " + EntryPath(name))
  {
    var r := ProcessFile(name, date, pandoc, pandocOutput, typst);
    var head := "Failed to run pandoc on file " + EntryPath(name);
    var detail := if pandoc.Failed? then pandoc.stderr else pandoc.error;
    assert r.message == head + (": " + detail);
    assert r.message[..|head|] == head;
  }

  /**
   * When pandoc succeeds on an eligible file, its output `X.typ` replaces
   * `X.md` in the name, the header carries the title made from `X` and the
   * clock's date, and the body is pandoc's output rewritten.  What typst
   * reports changes only the line printed about it.
   */
  lemma PandocSuccess(name: string, date: Date, pandocOutput: string, typst: ToolRun)
    requires Eligible(name) && '\n' !in name
    ensures ProcessFile(name, date, Succeeded, pandocOutput, typst).Converted?
    ensures ProcessFile(name, date, Succeeded, pandocOutput, typst).output == name[..|name| - 3] + ".typ"
    ensures Lines(ProcessFile(name, date, Succeeded, pandocOutput, typst).content)
         == HeaderLines(Title(Stem(name)), DateString(date)) + TransformBody(Lines(pandocOutput))
    ensures forall other: ToolRun ::
              ProcessFile(name, date, Succeeded, pandocOutput, other).content
              == ProcessFile(name, date, Succeeded, pandocOutput, typst).content
  {
    OutputNameOfEligible(name);
    var title := Title(Stem(name));
    TitleIsLine(name);
    DateStringIsLine(date);
    ContentLines(title, DateString(date), Lines(pandocOutput));
  }

  /** The title of an entry without a newline holds no newline. */
  lemma TitleIsLine(name: string)
    requires '\n' !in name
    ensures '\n' !in Title(Stem(name))
  {
    var stem := Stem(name);
    assert '\n' !in stem by {
      if name != ".." && LastDot(name).Some? && LastDot(name).value != 0 {
        var i := LastDot(name).value;
        forall j | 0 <= j < i
          ensures name[..i][j] != '\n'
        {
          assert name[..i][j] == name[j];
        }
      }
    }
    TitleSpaces(stem);
    forall j | 0 <= j < |stem|
      ensures Title(stem)[j] != '\n'
    {
    }
  }

  // ------------------------------------------------------------ a run

  /** What a whole run does. */
  datatype RunResult =
    | Exit(status: int, message: string)
      // the run stops before looking at any file
    | Done(results: seq<FileResult>)
      // one result per selected file, in directory order

  /**
   * A run: `args` is the argument vector, `entries` the working directory's
   * file names, `clock` what the clock reads when the header of each file is
   * written, `isTarget` the comparison of the `--single-file` path with an
   * entry, and `pandoc`, `pandocOutput` and `typst` what the tools report for
   * each file.
   */
  function Run(args: seq<string>, entries: seq<string>, clock: string -> Date, isTarget: (string, string) -> bool,
               pandoc: string -> ToolRun, pandocOutput: string -> string, typst: string -> ToolRun): RunResult
  {
    var inv := ParseArgs(args);
    if inv.UsageError? then Exit(inv.status, inv.message)
    else
      var files := SelectFiles(inv, entries, isTarget);
      Done(seq(|files|, i requires 0 <= i < |files| =>
        ProcessFile(files[i], clock(files[i]), pandoc(files[i]), pandocOutput(files[i]), typst(OutputName(files[i])))))
  }

  /** `--single-file` without a file name stops the run with status 1 before any file is touched. */
  lemma UsageStops(args: seq<string>, entries: seq<string>, clock: string -> Date, isTarget: (string, string) -> bool,
                   pandoc: string -> ToolRun, pandocOutput: string -> string, typst: string -> ToolRun)
    requires |args| == 2 && args[1] == SingleFileFlag
    ensures Run(args, entries, clock, isTarget, pandoc, pandocOutput, typst) == Exit(1, MissingFileName)
  {
  }

  /** Without `--single-file`, every eligible entry and nothing else is converted, each on its own. */
  lemma AllFilesRun(args: seq<string>, entries: seq<string>, clock: string -> Date, isTarget: (string, string) -> bool,
                    pandoc: string -> ToolRun, pandocOutput: string -> string, typst: string -> ToolRun)
    requires |args| < 2 || args[1] != SingleFileFlag
    ensures Run(args, entries, clock, isTarget, pandoc, pandocOutput, typst).Done?
    ensures var files := SelectAll(entries);
            var results := Run(args, entries, clock, isTarget, pandoc, pandocOutput, typst).results;
            |results| == |files| &&
            (forall n :: n in files <==> n in entries && Eligible(n)) &&
            forall i :: 0 <= i < |files| ==>
              results[i] == ProcessFile(files[i], clock(files[i]), pandoc(files[i]), pandocOutput(files[i]), typst(OutputName(files[i])))
  {
  }

  /** With `--single-file PATH`, exactly the entries `isTarget` matches with PATH are converted, each on its own. */
  lemma SingleFileRun(args: seq<string>, entries: seq<string>, clock: string -> Date, isTarget: (string, string) -> bool,
                      pandoc: string -> ToolRun, pandocOutput: string -> string, typst: string -> ToolRun)
    requires |args| > 2 && args[1] == SingleFileFlag
    ensures Run(args, entries, clock, isTarget, pandoc, pandocOutput, typst).Done?
    ensures var files := Targets(args[2], entries, isTarget);
            var results := Run(args, entries, clock, isTarget, pandoc, pandocOutput, typst).results;
            |results| == |files| &&
            (forall n :: n in files <==> n in entries && isTarget(args[2], n)) &&
            forall i :: 0 <= i < |files| ==>
              results[i] == ProcessFile(files[i], clock(files[i]), pandoc(files[i]), pandocOutput(files[i]), typst(OutputName(files[i])))
  {
  }
}

=== FILE: rewrite.dfy ===
/**
 * The four rewrite rules of `add_header_to_file` and the one scanner that
 * applies any of them to a text.
 *
 * Every rule is applied "replace all" style: scanning from the left, at each
 * position the rule either matches (the match is replaced and the scan goes
 * on after it) or does not (the character is kept and the scan moves one
 * character on).  This is what Rust's `str::replace` and the regex crate's
 * `Regex::replace_all` do; for the three patterns below the match that the
 * regex engine's leftmost-first semantics picks at a position is worked out
 * by hand and computed directly, without a regex engine.
 */
module Rewrite {
  import opened Text

  /** Opening of a link call whose target is rewritten. */
  const LinkOpen: string := "#link(\""
  /** End of a link call whose target ends in the markdown extension. */
  const MdClose: string := ".md\")"
  /** What `MdClose` becomes. */
  const PdfClose: string := ".pdf\")"
  /** Start of both equation notations. */
  const Marker: string := "systemequation $"

  datatype Rule =
    | Literal(from: string, to: string)
      // `str::replace(from, to)`
    | LinkToPdf
      // a link call `#link("X.md")` becomes `#link("X.pdf")`; X is the shortest
      // newline-free text followed by `.md")`
    | MultiLineEquation
      // `systemequation $A$`, white space holding at least one newline, `$B$`,
      // where A and B contain no newline, `|` or `$`, becomes `$cases(A, B)$`
    | SingleLineEquation
      // `systemequation $A$ $B$` on one line, A and B as long as possible,
      // becomes `$cases(A, B)$`
  {
    predicate WellFormed() {
      Literal? ==> |from| > 0
    }
  }

  /** A match at the start of the remaining text: how much it consumes and what replaces it. */
  datatype Hit = Hit(len: nat, out: string)

  /** The piecewise expression both equation rules produce. */
  function Cases(a: string, b: string): (r: string)
    ensures StartsWith(r, "$cases(") && EndsWith(r, ")$")
  {
    "$cases(" + a + ", " + b + ")$"
  }

  lemma CasesNoNewline(a: string, b: string)
    requires '\n' !in a && '\n' !in b
    ensures '\n' !in Cases(a, b)
  {
  }

  /** The first position of `pat` in `t` reached before any newline. */
  function FindBeforeNewline(t: string, pat: string): (r: Option<nat>)
    ensures r.Some? ==> r.value + |pat| <= |t| && StartsWith(t[r.value..], pat)
    ensures r.Some? ==> '\n' !in t[..r.value]
    ensures r.Some? ==> forall q :: 0 <= q < r.value ==> !StartsWith(t[q..], pat)
    ensures r.None? ==> forall q :: 0 <= q <= |t| && '\n' !in t[..q] ==> !StartsWith(t[q..], pat)
  {
    if StartsWith(t, pat) then
      assert t[0..] == t;
      Some(0)
    else if |t| == 0 then
      None
    else if t[0] == '\n' then
      assert forall q :: 0 < q <= |t| ==> t[..q][0] == '\n';
      assert t[0..] == t;
      None
    else
      var r := FindBeforeNewline(t[1..], pat);
      FindShift(t, pat, r);
      if r.Some? then Some(r.value + 1) else None
  }

  /** One step of the search: what holds of the search in `t[1..]` holds, shifted by one, in `t`. */
  lemma FindShift(t: string, pat: string, r: Option<nat>)
    requires |t| > 0 && t[0] != '\n' && !StartsWith(t, pat)
    requires r.Some? ==> r.value + |pat| <= |t[1..]| && StartsWith(t[1..][r.value..], pat)
    requires r.Some? ==> '\n' !in t[1..][..r.value]
    requires r.Some? ==> forall q :: 0 <= q < r.value ==> !StartsWith(t[1..][q..], pat)
    requires r.None? ==> forall q :: 0 <= q <= |t[1..]| && '\n' !in t[1..][..q] ==> !StartsWith(t[1..][q..], pat)
    ensures r.Some? ==> r.value + 1 + |pat| <= |t| && StartsWith(t[r.value + 1..], pat)
    ensures r.Some? ==> '\n' !in t[..r.value + 1]
    ensures r.Some? ==> forall q :: 0 <= q < r.value + 1 ==> !StartsWith(t[q..], pat)
    ensures r.None? ==> forall q :: 0 <= q <= |t| && '\n' !in t[..q] ==> !StartsWith(t[q..], pat)
  {
    assert t[0..] == t;
    assert forall q :: 0 < q <= |t| ==> t[q..] == t[1..][q - 1..];
    assert forall q :: 0 < q <= |t| ==> t[..q] == [t[0]] + t[1..][..q - 1];
  }

  function LinkAt(s: string): (r: Option<Hit>)
    ensures r.Some? ==> 0 < r.value.len <= |s| && '\n' !in r.value.out
    ensures r.Some? ==> StartsWith(s, LinkOpen) && Contains(s, MdClose)
  {
    if !StartsWith(s, LinkOpen) then None
    else
      var t := s[|LinkOpen|..];
      match FindBeforeNewline(t, MdClose)
      case None => None
      case Some(p) =>
        assert t[p..] == s[|LinkOpen| + p..];
        Some(Hit(|LinkOpen| + p + |MdClose|, LinkOpen + t[..p] + PdfClose))
  }

  function MultiAt(s: string): (r: Option<Hit>)
    ensures r.Some? ==> 0 < r.value.len <= |s| && '\n' !in r.value.out
    ensures r.Some? ==> StartsWith(s, Marker) && StartsWith(r.value.out, "$cases(")
  {
    if !StartsWith(s, Marker) then None
    else
      // first branch `s[|Marker|..k]`, closed by the `$` at k
      var k := RunEnd(s, |Marker|, BranchChar);
      if k == |s| || s[k] != '$' then None
      else
        // white space `s[k+1..m]`, then the `$` at m that opens the second branch
        var m := RunEnd(s, k + 1, Space);
        if m == |s| || s[m] != '$' || '\n' !in s[k + 1..m] then None
        else
          // second branch `s[m+1..e]`, closed by the `$` at e
          var e := RunEnd(s, m + 1, BranchChar);
          if e == |s| || s[e] != '$' then None
          else
            CasesNoNewline(s[|Marker|..k], s[m + 1..e]);
            Some(MultiHit(s, k, m, e))
  }

  /** The multi-line match whose first branch ends at `k`, second opens after `m` and closes at `e`. */
  function MultiHit(s: string, k: nat, m: nat, e: nat): Hit
    requires |Marker| <= k < m < e < |s|
  {
    Hit(e + 1, Cases(s[|Marker|..k], s[m + 1..e]))
  }

  /** What `MultiAt` finds once the ends of its three runs are known. */
  lemma MultiAtFrom(s: string, k: nat, m: nat, e: nat)
    requires StartsWith(s, Marker) && |Marker| <= k < m < e < |s|
    requires RunEnd(s, |Marker|, BranchChar) == k && s[k] == '$'
    requires RunEnd(s, k + 1, Space) == m && s[m] == '$' && '\n' in s[k + 1..m]
    requires RunEnd(s, m + 1, BranchChar) == e && s[e] == '$'
    ensures MultiAt(s) == Some(MultiHit(s, k, m, e))
  {
  }

  /** What `SingleAt` finds once the end of the line, its last `$` and the separator are known. */
  lemma SingleAtFrom(s: string, x: nat, z: nat)
    requires StartsWith(s, Marker) && |Marker| + 3 <= z < |s|
    requires LastBefore(s, |Marker|, RunEnd(s, |Marker|, LineChar), '$') == Some(z)
    requires SepSearch(s, |Marker|, z - 3) == Some(x)
    ensures SingleAt(s) == Some(SingleHit(s, x, z))
  {
  }

  /** `s[a..a+3]` is the separator `$ $` between the two single-line branches. */
  predicate SepAt(s: string, a: int) {
    0 <= a && a + 3 <= |s| && s[a] == '$' && s[a + 1] == ' ' && s[a + 2] == '$'
  }

  /** The last separator starting in `lo..a`. */
  function SepSearch(s: string, lo: nat, a: nat): (r: Option<nat>)
    requires a + 3 <= |s|
    ensures r.Some? ==> lo <= r.value <= a && SepAt(s, r.value)
    ensures r.Some? ==> forall y :: r.value < y <= a ==> !SepAt(s, y)
    ensures r.None? ==> forall y :: lo <= y <= a ==> !SepAt(s, y)
    decreases a
  {
    if a < lo then None
    else if SepAt(s, a) then Some(a)
    else if a == 0 then None
    else SepSearch(s, lo, a - 1)
  }

  /** The search finds the last separator in its range. */
  lemma {:induction false} SepSearchFinds(s: string, lo: nat, a: nat, v: nat)
    requires a + 3 <= |s| && lo <= v <= a && SepAt(s, v)
    requires forall y :: v < y <= a ==> !SepAt(s, y)
    ensures SepSearch(s, lo, a) == Some(v)
    decreases a
  {
    if a != v {
      SepSearchFinds(s, lo, a - 1, v);
    }
  }

  function SingleAt(s: string): (r: Option<Hit>)
    ensures r.Some? ==> 0 < r.value.len <= |s| && '\n' !in r.value.out
    ensures r.Some? ==> StartsWith(s, Marker) && StartsWith(r.value.out, "$cases(")
  {
    if !StartsWith(s, Marker) then None
    else
      // the rest of the current line is `s[|Marker|..n]`; its last `$` is at z
      var n := RunEnd(s, |Marker|, LineChar);
      match LastBefore(s, |Marker|, n, '$')
      case None => None
      case Some(z) =>
        if z < |Marker| + 3 then None
        else
          match SepSearch(s, |Marker|, z - 3)
          case None => None
          case Some(a) =>
            CasesNoNewline(s[|Marker|..a], s[a + 3..z]);
            Some(SingleHit(s, a, z))
  }

  /** The single-line match whose separator starts at `a` and whose last `$` is at `z`. */
  function SingleHit(s: string, a: nat, z: nat): Hit
    requires |Marker| <= a && a + 3 <= z < |s|
  {
    Hit(z + 1, Cases(s[|Marker|..a], s[a + 3..z]))
  }

  /** The match of `rule` at the start of `s`, if any. */
  function MatchAt(rule: Rule, s: string): (r: Option<Hit>)
    requires rule.WellFormed()
    ensures r.Some? ==> 0 < r.value.len <= |s|
    ensures r.Some? && rule.Literal? ==> StartsWith(s, rule.from) && r.value == Hit(|rule.from|, rule.to)
    ensures r.Some? && !rule.Literal? ==> '\n' !in r.value.out
    ensures r.Some? && rule.LinkToPdf? ==> Contains(s, MdClose)
    ensures r.Some? && (rule.MultiLineEquation? || rule.SingleLineEquation?) ==>
      StartsWith(s, Marker) && StartsWith(r.value.out, "$cases(")
  {
    match rule
    case Literal(from, to) => if StartsWith(s, from) then Some(Hit(|from|, to)) else None
    case LinkToPdf => LinkAt(s)
    case MultiLineEquation => MultiAt(s)
    case SingleLineEquation => SingleAt(s)
  }

  /** The rule matches at no position of `s`. */
  predicate NoMatchIn(rule: Rule, s: string)
    requires rule.WellFormed()
  {
    forall k :: 0 <= k < |s| ==> MatchAt(rule, s[k..]).None?
  }

  /** Every non-overlapping match of `rule`, leftmost first, replaced. */
  function ReplaceAll(rule: Rule, s: string): (r: string)
    requires rule.WellFormed()
    decreases |s|
  {
    if |s| == 0 then ""
    else
      match MatchAt(rule, s)
      case Some(h) => h.out + ReplaceAll(rule, s[h.len..])
      case None => [s[0]] + ReplaceAll(rule, s[1..])
  }

  /** Where the rule does not match, the first character is kept and the scan moves on. */
  lemma KeepStep(rule: Rule, s: string)
    requires rule.WellFormed() && |s| > 0 && MatchAt(rule, s).None?
    ensures ReplaceAll(rule, s) == [s[0]] + ReplaceAll(rule, s[1..])
  {
  }

  /** A prefix in which the rule matches nowhere is copied unchanged. */
  lemma {:induction false} PrefixUntouched(rule: Rule, x: string, y: string)
    requires rule.WellFormed()
    requires forall k :: 0 <= k < |x| ==> MatchAt(rule, (x + y)[k..]).None?
    ensures ReplaceAll(rule, x + y) == x + ReplaceAll(rule, y)
  {
    if |x| == 0 {
      assert x + y == y;
    } else {
      var s := x + y;
      NoMatchShift(rule, x, y);
      KeepStep(rule, s);
      PrefixUntouched(rule, x[1..], y);
      ConsAssoc(x, ReplaceAll(rule, y));
    }
  }

  lemma ConsAssoc(x: string, r: string)
    requires |x| > 0
    ensures [x[0]] + (x[1..] + r) == x + r
  {
    assert x == [x[0]] + x[1..];
  }

  /** Dropping the first character of a match-free prefix leaves a match-free prefix. */
  lemma NoMatchShift(rule: Rule, x: string, y: string)
    requires rule.WellFormed() && |x| > 0
    requires forall k :: 0 <= k < |x| ==> MatchAt(rule, (x + y)[k..]).None?
    ensures MatchAt(rule, x + y).None? && (x + y)[1..] == x[1..] + y && (x + y)[0] == x[0]
    ensures forall k :: 0 <= k < |x| - 1 ==> MatchAt(rule, (x[1..] + y)[k..]).None?
  {
    var s := x + y;
    assert s[0..] == s;
    forall k | 0 <= k < |x| - 1
      ensures MatchAt(rule, (x[1..] + y)[k..]).None?
    {
      assert (x[1..] + y)[k..] == s[k + 1..];
    }
  }

  /** A text in which the rule matches nowhere is left as it is. */
  lemma NoMatchUnchanged(rule: Rule, s: string)
    requires rule.WellFormed() && NoMatchIn(rule, s)
    ensures ReplaceAll(rule, s) == s
  {
    assert s + "" == s;
    PrefixUntouched(rule, s, "");
  }

  /** Replacements that bring no newline of their own never add a line. */
  lemma {:induction false} NewlinesNotIncreased(rule: Rule, s: string)
    requires rule.WellFormed() && (rule.Literal? ==> '\n' !in rule.to)
    ensures NewlineCount(ReplaceAll(rule, s)) <= NewlineCount(s)
    decreases |s|
  {
    if |s| > 0 {
      var m := MatchAt(rule, s);
      if m.Some? {
        NewlinesNotIncreased(rule, s[m.value.len..]);
        NewlinesAfterHit(rule, s);
      } else {
        NewlinesNotIncreased(rule, s[1..]);
        NewlinesAfterKeep(rule, s);
      }
    }
  }

  lemma NewlinesAfterHit(rule: Rule, s: string)
    requires rule.WellFormed() && (rule.Literal? ==> '\n' !in rule.to)
    requires |s| > 0 && MatchAt(rule, s).Some?
    requires NewlineCount(ReplaceAll(rule, s[MatchAt(rule, s).value.len..])) <= NewlineCount(s[MatchAt(rule, s).value.len..])
    ensures NewlineCount(ReplaceAll(rule, s)) <= NewlineCount(s)
  {
    var h := MatchAt(rule, s).value;
    MatchThenRest(rule, s);
    CountAfterHit(s, h.len, h.out, ReplaceAll(rule, s[h.len..]));
  }

  /** Replacing a prefix by a newline-free text, and the rest by a text with no more newlines, adds none. */
  lemma CountAfterHit(s: string, len: nat, out: string, rest: string)
    requires len <= |s| && '\n' !in out && NewlineCount(rest) <= NewlineCount(s[len..])
    ensures NewlineCount(out + rest) <= NewlineCount(s)
  {
    NewlineCountZero(out);
    NewlineCountConcat(out, rest);
    assert s == s[..len] + s[len..];
    NewlineCountConcat(s[..len], s[len..]);
  }

  lemma NewlinesAfterKeep(rule: Rule, s: string)
    requires rule.WellFormed() && |s| > 0 && MatchAt(rule, s).None?
    requires NewlineCount(ReplaceAll(rule, s[1..])) <= NewlineCount(s[1..])
    ensures NewlineCount(ReplaceAll(rule, s)) <= NewlineCount(s)
  {
    KeepStep(rule, s);
    NewlineCountConcat([s[0]], ReplaceAll(rule, s[1..]));
    assert s == [s[0]] + s[1..];
    NewlineCountConcat([s[0]], s[1..]);
  }

  /** The first match after a prefix where the rule matches nowhere is replaced, and the scan resumes after it. */
  lemma HitAfter(rule: Rule, s: string, x: string, t: string)
    requires rule.WellFormed() && s == x + t && |t| > 0 && MatchAt(rule, t).Some?
    requires forall k :: 0 <= k < |x| ==> MatchAt(rule, s[k..]).None?
    ensures ReplaceAll(rule, s)
         == x + (MatchAt(rule, t).value.out + ReplaceAll(rule, t[MatchAt(rule, t).value.len..]))
  {
    PrefixUntouched(rule, x, t);
    MatchThenRest(rule, t);
  }

  /** `HitAfter`, with the match and the text after it named. */
  lemma HitAfterExact(rule: Rule, s: string, x: string, t: string, h: Hit, rest: string)
    requires rule.WellFormed() && s == x + t && |t| > 0 && MatchAt(rule, t) == Some(h)
    requires h.len <= |t| && t[h.len..] == rest
    requires forall k :: 0 <= k < |x| ==> MatchAt(rule, s[k..]).None?
    ensures ReplaceAll(rule, s) == x + (h.out + ReplaceAll(rule, rest))
  {
    HitAfter(rule, s, x, t);
  }

  /** The text after a match is scanned as if it stood alone. */
  lemma MatchThenRest(rule: Rule, s: string)
    requires rule.WellFormed() && |s| > 0 && MatchAt(rule, s).Some?
    ensures ReplaceAll(rule, s) == MatchAt(rule, s).value.out + ReplaceAll(rule, s[MatchAt(rule, s).value.len..])
  {
  }
}

=== FILE: rules.dfy ===
/**
 * What each rewrite rule of `add_header_to_file` does to a text: exact
 * outputs on the inputs it is meant for, and the texts it leaves alone.
 */
module Rules {
  import opened Text
  import opened Rewrite

  /** The escaped page-break directive pandoc emits, unescaped. */
  const Unescape: Rule := Literal("\\#pagebreak", "#pagebreak")
  /** A percent-encoded space, decoded. */
  const DecodeSpace: Rule := Literal("%20", " ")

  // ------------------------------------------------------------ literal rules

  lemma LiteralUntouched(from: string, to: string, s: string)
    requires |from| > 0 && !Contains(s, from)
    ensures ReplaceAll(Literal(from, to), s) == s
  {
    var rule := Literal(from, to);
    forall k | 0 <= k < |s|
      ensures MatchAt(rule, s[k..]).None?
    {
      assert !StartsWith(s[k..], from);
    }
    NoMatchUnchanged(rule, s);
  }

  /** The first occurrence of a border-free literal is replaced and the scan resumes right after it. */
  lemma LiteralFirst(from: string, to: string, x: string, y: string)
    requires BorderFree(from) && !Contains(x, from)
    ensures ReplaceAll(Literal(from, to), x + from + y) == x + to + ReplaceAll(Literal(from, to), y)
  {
    var rule := Literal(from, to);
    var t := from + y;
    var s := x + t;
    assert s == x + from + y;
    NoOccurrenceBefore(x, from, y);
    forall k | 0 <= k < |x|
      ensures MatchAt(rule, s[k..]).None?
    {
      assert !StartsWith(s[k..], from);
    }
    PrefixUntouched(rule, x, t);
    assert t[..|from|] == from;
    MatchThenRest(rule, t);
    assert t[|from|..] == y;
  }

  /** `ps[0] + sep + ps[1] + sep + ... + ps[|ps| - 1]` */
  function Interleave(ps: seq<string>, sep: string): string
    requires |ps| > 0
  {
    if |ps| == 1 then ps[0] else ps[0] + sep + Interleave(ps[1..], sep)
  }

  /**
   * Every occurrence of a border-free literal is replaced and the text
   * between occurrences is kept: replacing is splitting on `from` and joining
   * with `to`.
   */
  lemma {:induction false} LiteralEveryOccurrence(from: string, to: string, ps: seq<string>)
    requires BorderFree(from) && |ps| > 0
    requires forall i :: 0 <= i < |ps| ==> !Contains(ps[i], from)
    ensures ReplaceAll(Literal(from, to), Interleave(ps, from)) == Interleave(ps, to)
  {
    if |ps| == 1 {
      LiteralUntouched(from, to, ps[0]);
    } else {
      LiteralEveryOccurrence(from, to, ps[1..]);
      LiteralFirst(from, to, ps[0], Interleave(ps[1..], from));
    }
  }

  lemma UnescapeBorderFree()
    ensures BorderFree("\\#pagebreak")
  {
    FirstCharUniqueBorderFree("\\#pagebreak");
  }

  /** Every `\#pagebreak` becomes `#pagebreak`, and nothing else changes. */
  lemma UnescapeEveryOccurrence(ps: seq<string>)
    requires |ps| > 0
    requires forall i :: 0 <= i < |ps| ==> !Contains(ps[i], "\\#pagebreak")
    ensures ReplaceAll(Unescape, Interleave(ps, "\\#pagebreak")) == Interleave(ps, "#pagebreak")
  {
    UnescapeBorderFree();
    LiteralEveryOccurrence("\\#pagebreak", "#pagebreak", ps);
  }

  /**
   * Unescaping is not idempotent: a doubly escaped directive loses one
   * backslash per pass, so a second pass changes the text again.
   */
  lemma UnescapeNotIdempotent(s: string)
    requires s == "\\" + "\\#pagebreak"
    ensures ReplaceAll(Unescape, s) == "\\#pagebreak"
    ensures ReplaceAll(Unescape, ReplaceAll(Unescape, s)) == "#pagebreak"
    ensures ReplaceAll(Unescape, s) != ReplaceAll(Unescape, ReplaceAll(Unescape, s))
  {
    UnescapeAfter("\\", s);
    assert "\\" + "#pagebreak" == "\\#pagebreak";
    UnescapeAfter("", "\\#pagebreak");
  }

  /** A directive behind a prefix too short to hold one is unescaped, and the rest is left alone. */
  lemma UnescapeAfter(x: string, s: string)
    requires |x| < 11 && s == x + "\\#pagebreak"
    ensures ReplaceAll(Unescape, s) == x + "#pagebreak"
  {
    UnescapeBorderFree();
    ShortUntouched(x, "\\#pagebreak");
    LiteralFirst("\\#pagebreak", "#pagebreak", x, "");
    assert s == x + "\\#pagebreak" + "";
    assert ReplaceAll(Unescape, "") == "";
  }

  /** A string shorter than `p` does not contain it. */
  lemma ShortUntouched(s: string, p: string)
    requires |s| < |p|
    ensures !Contains(s, p)
  {
  }

  /** Every `%20` becomes a single space, and nothing else changes. */
  lemma DecodeEveryOccurrence(ps: seq<string>)
    requires |ps| > 0
    requires forall i :: 0 <= i < |ps| ==> !Contains(ps[i], "%20")
    ensures ReplaceAll(DecodeSpace, Interleave(ps, "%20")) == Interleave(ps, " ")
  {
    FirstCharUniqueBorderFree("%20");
    LiteralEveryOccurrence("%20", " ", ps);
  }

  // ------------------------------------------------------------ no `%20` left

  /** Gluing two `%20`-free strings creates no `%20` unless one straddles the seam. */
  lemma ConcatNoPercent20(u: string, v: string)
    requires !Contains(u, "%20") && !Contains(v, "%20")
    requires !(|u| >= 1 && |v| >= 2 && u[|u| - 1] == '%' && v[0] == '2' && v[1] == '0')
    requires !(|u| >= 2 && |v| >= 1 && u[|u| - 2] == '%' && u[|u| - 1] == '2' && v[0] == '0')
    ensures !Contains(u + v, "%20")
  {
    var s := u + v;
    forall k | 0 <= k <= |s|
      ensures !StartsWith(s[k..], "%20")
    {
      if 3 <= |s| - k {
        if k + 3 <= |u| {
          assert s[k..][..3] == u[k..][..3];
          assert !StartsWith(u[k..], "%20");
        } else if k >= |u| {
          assert s[k..][..3] == v[k - |u|..][..3];
          assert !StartsWith(v[k - |u|..], "%20");
        } else {
          assert s[k..][..3] == [s[k], s[k + 1], s[k + 2]];
        }
      }
    }
  }

  /** A string too short to hold `%20`. */
  lemma ShortNoPercent20(s: string)
    requires |s| < 3
    ensures !Contains(s, "%20")
  {
  }

  lemma CasesNoPercent20(a: string, b: string)
    requires !Contains(a, "%20") && !Contains(b, "%20")
    ensures !Contains(Cases(a, b), "%20")
  {
    MissingCharNotContained("$cases(", "%20", 0);
    var u1 := "$cases(" + a;
    ConcatNoPercent20("$cases(", a);
    ShortNoPercent20(", ");
    ConcatNoPercent20(u1, ", ");
    var u2 := u1 + ", ";
    ConcatNoPercent20(u2, b);
    var u3 := u2 + b;
    assert u3[|u3| - 1] == ' ' || (|b| > 0 && u3[|u3| - 1] == b[|b| - 1]);
    ShortNoPercent20(")$");
    ConcatNoPercent20(u3, ")$");
    assert Cases(a, b) == u3 + ")$";
  }

  /** After the space decoding rule no `%20` is left. */
  lemma {:induction false} DecodeLeavesNoPercent20(s: string)
    ensures !Contains(ReplaceAll(DecodeSpace, s), "%20")
    decreases |s|
  {
    if |s| == 0 {
      ShortNoPercent20("");
    } else if StartsWith(s, "%20") {
      DecodeLeavesNoPercent20(s[3..]);
      DecodeHitStep(s);
    } else {
      DecodeLeavesNoPercent20(s[1..]);
      KeepStepNoPercent20(DecodeSpace, s);
    }
  }

  lemma DecodeHitStep(s: string)
    requires StartsWith(s, "%20")
    requires !Contains(ReplaceAll(DecodeSpace, s[3..]), "%20")
    ensures !Contains(ReplaceAll(DecodeSpace, s), "%20")
  {
    MatchThenRest(DecodeSpace, s);
    ShortNoPercent20(" ");
    ConcatNoPercent20(" ", ReplaceAll(DecodeSpace, s[3..]));
  }

  /** The rest of a string that starts with `%` but not with `%20` does not start with `20`. */
  lemma NoPercent20Tail(s: string)
    requires |s| > 0 && s[0] == '%' && !StartsWith(s, "%20")
    ensures !StartsWith(s[1..], "20")
  {
    if |s| >= 3 {
      assert s[..3] == [s[0]] + s[1..][..2];
    }
  }

  /** Keeping a character the rule did not match at creates no `%20`. */
  lemma KeepStepNoPercent20(rule: Rule, s: string)
    requires rule == DecodeSpace || rule == SingleLineEquation
    requires |s| > 0 && MatchAt(rule, s).None? && !StartsWith(s, "%20")
    requires !Contains(ReplaceAll(rule, s[1..]), "%20")
    ensures !Contains(ReplaceAll(rule, s), "%20")
  {
    KeepStep(rule, s);
    var rest := ReplaceAll(rule, s[1..]);
    ShortNoPercent20([s[0]]);
    if s[0] == '%' {
      NoPercent20Tail(s);
      NoLeading20(rule, s[1..]);
      assert !(|rest| >= 2 && rest[0] == '2' && rest[1] == '0') by {
        if |rest| >= 2 {
          assert rest[..2] == [rest[0], rest[1]];
        }
      }
    }
    ConcatNoPercent20([s[0]], rest);
  }

  /** The space decoding and the single-line equation rule never start their output with a `20` they did not find. */
  lemma NoLeading20(rule: Rule, t: string)
    requires rule == DecodeSpace || rule == SingleLineEquation
    requires !StartsWith(t, "20")
    ensures !StartsWith(ReplaceAll(rule, t), "20")
  {
    if |t| > 0 {
      if MatchAt(rule, t).Some? {
        HitFirstChar(rule, t);
        ConsNot20(ReplaceAll(rule, t)[0], ReplaceAll(rule, t)[1..]);
        assert ReplaceAll(rule, t) == [ReplaceAll(rule, t)[0]] + ReplaceAll(rule, t)[1..];
      } else {
        KeepStep(rule, t);
        if t[0] == '2' && |t| > 1 {
          SecondNotZero(t);
          SecondChar(rule, t[1..]);
        }
        ConsNot20(t[0], ReplaceAll(rule, t[1..]));
      }
    }
  }

  /** A text that starts with `c` and goes on with `rest` starts with `20` only if `c` is `2` and `rest` starts with `0`. */
  lemma ConsNot20(c: char, rest: string)
    requires c != '2' || |rest| == 0 || rest[0] != '0'
    ensures !StartsWith([c] + rest, "20")
  {
    var s := [c] + rest;
    if |s| >= 2 {
      assert s[..2] == [c, rest[0]];
    }
  }

  lemma SecondNotZero(t: string)
    requires |t| > 1 && t[0] == '2' && !StartsWith(t, "20")
    ensures t[1..][0] != '0'
  {
    assert t[..2] == [t[0], t[1]];
  }

  /** A text starting with a match is rewritten to a text starting with a space or a `$`. */
  lemma HitFirstChar(rule: Rule, t: string)
    requires rule == DecodeSpace || rule == SingleLineEquation
    requires |t| > 0 && MatchAt(rule, t).Some?
    ensures |ReplaceAll(rule, t)| > 0 && ReplaceAll(rule, t)[0] in {' ', '$'}
  {
    MatchThenRest(rule, t);
    HitHead(rule, t);
    assert ReplaceAll(rule, t)[0] == MatchAt(rule, t).value.out[0];
  }

  /** A text that does not start with `0` is not rewritten to one that does. */
  lemma SecondChar(rule: Rule, t1: string)
    requires rule == DecodeSpace || rule == SingleLineEquation
    requires |t1| > 0 && t1[0] != '0'
    ensures |ReplaceAll(rule, t1)| > 0 && ReplaceAll(rule, t1)[0] != '0'
  {
    if MatchAt(rule, t1).Some? {
      HitFirstChar(rule, t1);
    } else {
      KeepStep(rule, t1);
    }
  }

  lemma HitHead(rule: Rule, t: string)
    requires rule == DecodeSpace || rule == SingleLineEquation
    requires MatchAt(rule, t).Some?
    ensures |MatchAt(rule, t).value.out| > 0
    ensures MatchAt(rule, t).value.out[0] == ' ' || MatchAt(rule, t).value.out[0] == '$'
  {
  }

  /** The replacement of a single-line match is built from pieces of the text it replaces. */
  lemma SingleHitNoPercent20(s: string)
    requires SingleAt(s).Some? && !Contains(s, "%20")
    ensures !Contains(SingleAt(s).value.out, "%20")
  {
    var n := RunEnd(s, |Marker|, LineChar);
    var z := LastBefore(s, |Marker|, n, '$').value;
    var a := SepSearch(s, |Marker|, z - 3).value;
    assert SingleAt(s).value.out == Cases(s[|Marker|..a], s[a + 3..z]);
    SliceNotContains(s, |Marker|, a, "%20");
    SliceNotContains(s, a + 3, z, "%20");
    CasesNoPercent20(s[|Marker|..a], s[a + 3..z]);
  }

  /** The single-line equation rule brings in no `%20`. */
  lemma {:induction false} SingleKeepsNoPercent20(s: string)
    requires !Contains(s, "%20")
    ensures !Contains(ReplaceAll(SingleLineEquation, s), "%20")
    decreases |s|
  {
    if |s| == 0 {
      ShortNoPercent20("");
    } else if SingleAt(s).Some? {
      var h := SingleAt(s).value;
      SliceNotContains(s, h.len, |s|, "%20");
      SingleKeepsNoPercent20(s[h.len..]);
      SingleHitStep(s);
    } else {
      SliceNotContains(s, 1, |s|, "%20");
      SingleKeepsNoPercent20(s[1..]);
      assert s[0..] == s;
      KeepStepNoPercent20(SingleLineEquation, s);
    }
  }

  lemma SingleHitStep(s: string)
    requires SingleAt(s).Some? && !Contains(s, "%20")
    requires !Contains(ReplaceAll(SingleLineEquation, s[SingleAt(s).value.len..]), "%20")
    ensures !Contains(ReplaceAll(SingleLineEquation, s), "%20")
  {
    var h := SingleAt(s).value;
    MatchThenRest(SingleLineEquation, s);
    SingleHitNoPercent20(s);
    assert EndsWith(h.out, ")$");
    assert h.out[|h.out| - 1] == '$';
    ConcatNoPercent20(h.out, ReplaceAll(SingleLineEquation, s[h.len..]));
  }
}

=== FILE: text.dfy ===
/**
 * Strings, lines and character classes shared by the rewriting rules, the
 * header and the command line.
 *
 * A line is a string without `\n`.  A document body is joined into one text
 * with `\n` between its lines, and a text is cut back into lines the way
 * Rust's `str::lines` does it: on every `\n`, without the empty piece that
 * follows a final `\n`.
 */
module Text {

  datatype Option<T> = None | Some(value: T)

  predicate StartsWith(s: string, p: string) {
    |p| <= |s| && s[..|p|] == p
  }

  predicate EndsWith(s: string, p: string) {
    |p| <= |s| && s[|s| - |p|..] == p
  }

  /** `p` occurs in `s` at some position. */
  predicate Contains(s: string, p: string) {
    exists k :: 0 <= k <= |s| && StartsWith(s[k..], p)
  }

  /** No proper non-empty prefix of `p` is also a suffix of it: two occurrences of `p` never overlap. */
  predicate BorderFree(p: string) {
    |p| > 0 && forall n :: 0 < n < |p| ==> p[..n] != p[|p| - n..]
  }

  /** A pattern that contains a character `s` lacks does not occur in `s`. */
  lemma MissingCharNotContained(s: string, p: string, i: nat)
    requires i < |p| && p[i] !in s
    ensures !Contains(s, p)
  {
    forall k | 0 <= k <= |s|
      ensures !StartsWith(s[k..], p)
    {
      if |p| <= |s| - k {
        assert s[k..][..|p|][i] == s[k + i];
      }
    }
  }

  lemma FirstCharUniqueBorderFree(p: string)
    requires |p| > 0 && p[0] !in p[1..]
    ensures BorderFree(p)
  {
    forall n | 0 < n < |p|
      ensures p[..n] != p[|p| - n..]
    {
      assert p[..n][0] == p[0];
      assert p[|p| - n..][0] == p[1..][|p| - n - 1];
    }
  }

  lemma LastCharUniqueBorderFree(p: string)
    requires |p| > 0 && p[|p| - 1] !in p[..|p| - 1]
    ensures BorderFree(p)
  {
    forall n | 0 < n < |p|
      ensures p[..n] != p[|p| - n..]
    {
      assert p[|p| - n..][n - 1] == p[|p| - 1];
      assert p[..n][n - 1] == p[..|p| - 1][n - 1];
    }
  }

  /**
   * When `x` does not contain a border-free `p`, the first occurrence of `p`
   * in `x + p + y` is the one right after `x`.
   */
  lemma NoOccurrenceBefore(x: string, p: string, y: string)
    requires BorderFree(p) && !Contains(x, p)
    ensures forall k :: 0 <= k < |x| ==> !StartsWith((x + p + y)[k..], p)
  {
    var s := x + p + y;
    forall k | 0 <= k < |x|
      ensures !StartsWith(s[k..], p)
    {
      if k + |p| <= |x| {
        assert x[k..][..|p|] == s[k..][..|p|];
        assert !StartsWith(x[k..], p);
      } else {
        var n := k + |p| - |x|;
        assert s[k..][..|p|][|p| - n..] == s[|x|..|x| + n];
        assert p[..n] == s[|x|..|x| + n];
        assert p[..n] != p[|p| - n..];
      }
    }
  }

  /** An occurrence of `p` in `x + [c] + y`, with `c` not in `p`, would have to lie inside `x` or inside `y`. */
  lemma ContainsAcross(x: string, c: char, y: string, p: string)
    requires c !in p
    requires !Contains(x, p) && !Contains(y, p)
    ensures !Contains(x + [c] + y, p)
  {
    var s := x + [c] + y;
    forall k | 0 <= k <= |s|
      ensures !StartsWith(s[k..], p)
    {
      if |p| <= |s| - k {
        if k + |p| <= |x| {
          assert x[k..][..|p|] == s[k..][..|p|];
          assert !StartsWith(x[k..], p);
        } else if k > |x| {
          assert y[k - |x| - 1..][..|p|] == s[k..][..|p|];
          assert !StartsWith(y[k - |x| - 1..], p);
        } else {
          assert s[k..][..|p|][|x| - k] == c;
        }
      }
    }
  }

  /** An occurrence in a suffix is an occurrence. */
  lemma SuffixContains(s: string, i: nat, p: string)
    requires i <= |s| && Contains(s[i..], p)
    ensures Contains(s, p)
  {
    var k :| 0 <= k <= |s| - i && StartsWith(s[i..][k..], p);
    assert s[i..][k..] == s[i + k..];
  }

  /** A string free of `p` is free of every pattern that starts with `p`. */
  lemma LongerNotContained(s: string, p: string, q: string)
    requires !Contains(s, p)
    ensures !Contains(s, p + q)
  {
    forall k | 0 <= k <= |s|
      ensures !StartsWith(s[k..], p + q)
    {
      assert !StartsWith(s[k..], p);
      if |p + q| <= |s| - k {
        assert s[k..][..|p|] == s[k..][..|p + q|][..|p|];
        assert (p + q)[..|p|] == p;
      }
    }
  }

  /** A piece of a string free of `p` is free of `p`. */
  lemma SliceNotContains(s: string, i: nat, j: nat, p: string)
    requires i <= j <= |s| && !Contains(s, p)
    ensures !Contains(s[i..j], p)
  {
    forall k | 0 <= k <= j - i
      ensures !StartsWith(s[i..j][k..], p)
    {
      if |p| <= j - i - k {
        assert s[i + k..][..|p|] == s[i..j][k..][..|p|];
        assert !StartsWith(s[i + k..], p);
      }
    }
  }

  // ---------------------------------------------------------------- classes

  /**
   * `White_Space` of Unicode, which is what `\s` stands for in the regex
   * crate's default Unicode mode.
   */
  predicate IsSpace(c: char) {
    ('\t' <= c <= '\r') || c == ' ' || c == '\U{85}' || c == '\U{A0}' || c == '\U{1680}'
    || ('\U{2000}' <= c <= '\U{200A}') || c == '\U{2028}' || c == '\U{2029}'
    || c == '\U{202F}' || c == '\U{205F}' || c == '\U{3000}'
  }

  predicate IsDigit(c: char) {
    '0' <= c <= '9'
  }

  predicate AllIn(s: string, cls: CharClass) {
    forall i :: 0 <= i < |s| ==> InClass(cls, s[i])
  }

  /** The character classes the converter scans runs of. */
  datatype CharClass =
    | BranchChar    // anything but a newline, `|` and `$`
    | Space         // Unicode white space
    | LineChar      // anything but a newline
    | Digit
    | NotComma

  predicate InClass(cls: CharClass, c: char) {
    match cls
    case BranchChar => c != '\n' && c != '|' && c != '$'
    case Space => IsSpace(c)
    case LineChar => c != '\n'
    case Digit => IsDigit(c)
    case NotComma => c != ','
  }

  /** End of the longest run of characters in `cls` that starts at `i`. */
  function RunEnd(s: string, i: nat, cls: CharClass): (j: nat)
    requires i <= |s|
    ensures i <= j <= |s|
    ensures forall q :: i <= q < j ==> InClass(cls, s[q])
    ensures j < |s| ==> !InClass(cls, s[j])
    decreases |s| - i
  {
    if i == |s| || !InClass(cls, s[i]) then i else RunEnd(s, i + 1, cls)
  }

  /** A run is pinned down by the first character after it that is outside the class. */
  lemma RunEndAt(s: string, i: nat, j: nat, cls: CharClass)
    requires i <= j <= |s|
    requires forall q :: i <= q < j ==> InClass(cls, s[q])
    requires j == |s| || !InClass(cls, s[j])
    ensures RunEnd(s, i, cls) == j
  {
  }

  /**
   * `s` is `p`, a run `u` of class `cls`, a character `c` outside it and the
   * text `r`: the run starting after `p` ends at `c`.
   */
  lemma RunPiece(s: string, p: string, u: string, c: char, r: string, cls: CharClass)
    requires s == p + (u + ([c] + r)) && AllIn(u, cls) && !InClass(cls, c)
    ensures RunEnd(s, |p|, cls) == |p| + |u| && s[|p| + |u|] == c
    ensures s[|p|..|p| + |u|] == u && |s| == |p| + |u| + 1 + |r|
  {
    PieceAt(s, p, u, [c] + r);
    forall q | |p| <= q < |p| + |u|
      ensures InClass(cls, s[q])
    {
      assert s[q] == u[q - |p|];
    }
    RunEndAt(s, |p|, |p| + |u|, cls);
  }

  /** Where `u` sits in `p + (u + t)`. */
  lemma PieceAt(s: string, p: string, u: string, t: string)
    requires s == p + (u + t)
    ensures |s| == |p| + |u| + |t| && s[|p|..|p| + |u|] == u && s[|p| + |u|..] == t
    ensures forall q :: |p| <= q < |p| + |u| ==> s[q] == u[q - |p|]
  {
    assert s[|p|..|p| + |u|] == u;
    assert s[|p| + |u|..] == t;
  }

  /** The index of the last `c` in `s[lo..hi]`. */
  function LastBefore(s: string, lo: nat, hi: nat, c: char): (r: Option<nat>)
    requires lo <= hi <= |s|
    ensures r.Some? ==> lo <= r.value < hi && s[r.value] == c
    ensures r.Some? ==> forall j :: r.value < j < hi ==> s[j] != c
    ensures r.None? ==> forall j :: lo <= j < hi ==> s[j] != c
    decreases hi - lo
  {
    if hi == lo then None
    else if s[hi - 1] == c then Some(hi - 1)
    else LastBefore(s, lo, hi - 1, c)
  }

  lemma LastBeforeAt(s: string, lo: nat, hi: nat, c: char, z: nat)
    requires lo <= z < hi <= |s| && s[z] == c
    requires forall j :: z < j < hi ==> s[j] != c
    ensures LastBefore(s, lo, hi, c) == Some(z)
  {
  }

  // ---------------------------------------------------------------- lines

  function NewlineCount(s: string): nat {
    if |s| == 0 then 0 else (if s[0] == '\n' then 1 else 0) + NewlineCount(s[1..])
  }

  lemma {:induction false} NewlineCountConcat(a: string, b: string)
    ensures NewlineCount(a + b) == NewlineCount(a) + NewlineCount(b)
  {
    if |a| > 0 {
      assert (a + b)[1..] == a[1..] + b;
      NewlineCountConcat(a[1..], b);
    } else {
      assert a + b == b;
    }
  }

  lemma {:induction false} NewlineCountZero(s: string)
    ensures NewlineCount(s) == 0 <==> '\n' !in s
  {
    if |s| > 0 {
      NewlineCountZero(s[1..]);
      assert s == [s[0]] + s[1..];
    }
  }

  predicate AllLines(ls: seq<string>) {
    forall i :: 0 <= i < |ls| ==> '\n' !in ls[i]
  }

  lemma AllLinesConcat(a: seq<string>, b: seq<string>)
    requires AllLines(a) && AllLines(b)
    ensures AllLines(a + b)
  {
    forall i | 0 <= i < |a + b|
      ensures '\n' !in (a + b)[i]
    {
      if i >= |a| {
        assert (a + b)[i] == b[i - |a|];
      }
    }
  }

  /** `ls.join("\n")` */
  function Join(ls: seq<string>): string {
    if |ls| == 0 then ""
    else if |ls| == 1 then ls[0]
    else ls[0] + "\n" + Join(ls[1..])
  }

  /** Every piece between newlines, including an empty last piece. */
  function Split(s: string): (parts: seq<string>)
    ensures |parts| >= 1
    ensures AllLines(parts)
    ensures Join(parts) == s
  {
    if |s| == 0 then [""]
    else if s[0] == '\n' then
      var rest := Split(s[1..]);
      assert ([""] + rest)[1..] == rest;
      [""] + rest
    else
      var rest := Split(s[1..]);
      var parts := [[s[0]] + rest[0]] + rest[1..];
      assert parts[1..] == rest[1..];
      assert s == [s[0]] + s[1..];
      if |rest| == 1 then parts
      else
        assert Join(rest) == rest[0] + "\n" + Join(rest[1..]);
        parts
  }

  function DropTrailingEmpty(ls: seq<string>): seq<string> {
    if |ls| > 0 && ls[|ls| - 1] == "" then ls[..|ls| - 1] else ls
  }

  /** Rust's `str::lines` on a text whose line terminator is `\n`. */
  function Lines(s: string): (ls: seq<string>)
    ensures AllLines(ls)
  {
    DropTrailingEmpty(Split(s))
  }

  /** The text `writeln!` produces for each line in turn. */
  function Unlines(ls: seq<string>): string {
    if |ls| == 0 then "" else ls[0] + "\n" + Unlines(ls[1..])
  }

  lemma {:induction false} SplitPrefix(x: string, t: string)
    requires '\n' !in x
    ensures Split(x + t) == [x + Split(t)[0]] + Split(t)[1..]
  {
    if |x| == 0 {
      assert x + t == t;
      assert x + Split(t)[0] == Split(t)[0];
      assert [Split(t)[0]] + Split(t)[1..] == Split(t);
    } else {
      assert (x + t)[0] == x[0];
      assert (x + t)[1..] == x[1..] + t;
      SplitPrefix(x[1..], t);
      assert [x[0]] + (x[1..] + Split(t)[0]) == x + Split(t)[0];
    }
  }

  /** Splitting a joined body gives back its lines. */
  lemma {:induction false} SplitJoin(ls: seq<string>)
    requires |ls| > 0 && AllLines(ls)
    ensures Split(Join(ls)) == ls
  {
    if |ls| == 1 {
      SplitPrefix(ls[0], "");
      assert ls[0] + "" == ls[0];
    } else {
      var t := "\n" + Join(ls[1..]);
      SplitJoin(ls[1..]);
      assert t[1..] == Join(ls[1..]);
      assert Split(t) == [""] + ls[1..];
      SplitPrefix(ls[0], t);
      assert ls[0] + "" == ls[0];
      assert Join(ls) == ls[0] + t;
    }
  }

  /** Joining the lines of a body and cutting the text back loses only a trailing empty line. */
  lemma LinesJoin(ls: seq<string>)
    requires AllLines(ls)
    ensures Lines(Join(ls)) == DropTrailingEmpty(ls)
  {
    if |ls| > 0 {
      SplitJoin(ls);
    }
  }

  lemma {:induction false} UnlinesAsJoin(ls: seq<string>)
    ensures Unlines(ls) == Join(ls + [""])
  {
    if |ls| > 0 {
      UnlinesAsJoin(ls[1..]);
      assert (ls + [""])[1..] == ls[1..] + [""];
    }
  }

  /** Cutting what `writeln!` wrote for each line gives back the lines. */
  lemma LinesUnlines(ls: seq<string>)
    requires AllLines(ls)
    ensures Lines(Unlines(ls)) == ls
  {
    UnlinesAsJoin(ls);
    LinesJoin(ls + [""]);
    assert (ls + [""])[..|ls|] == ls;
  }

  lemma {:induction false} UnlinesConcat(a: seq<string>, b: seq<string>)
    ensures Unlines(a + b) == Unlines(a) + Unlines(b)
  {
    if |a| > 0 {
      assert (a + b)[1..] == a[1..] + b;
      UnlinesConcat(a[1..], b);
    } else {
      assert a + b == b;
    }
  }

  lemma {:induction false} SplitCount(s: string)
    ensures |Split(s)| == NewlineCount(s) + 1
  {
    if |s| > 0 {
      SplitCount(s[1..]);
    }
  }

  /** A text never has more lines than newlines plus one. */
  lemma LinesCount(s: string)
    ensures |Lines(s)| <= NewlineCount(s) + 1
  {
    SplitCount(s);
  }

  lemma {:induction false} JoinNewlineCount(ls: seq<string>)
    requires |ls| > 0 && AllLines(ls)
    ensures NewlineCount(Join(ls)) == |ls| - 1
  {
    NewlineCountZero(ls[0]);
    if |ls| > 1 {
      JoinNewlineCount(ls[1..]);
      NewlineCountConcat(ls[0] + "\n", Join(ls[1..]));
      NewlineCountConcat(ls[0], "\n");
    }
  }

  /** A newline-free pattern occurs in a joined body only inside one of its lines. */
  lemma {:induction false} JoinNotContains(ls: seq<string>, p: string)
    requires |p| > 0 && '\n' !in p
    requires forall i :: 0 <= i < |ls| ==> !Contains(ls[i], p)
    ensures !Contains(Join(ls), p)
  {
    if |ls| == 0 {
      MissingCharNotContained("", p, 0);
    } else if |ls| > 1 {
      JoinNotContains(ls[1..], p);
      ContainsAcross(ls[0], '\n', Join(ls[1..]), p);
      assert Join(ls) == ls[0] + ['\n'] + Join(ls[1..]);
    }
  }
}
